=== FILE: README.md ===
# Campaign membership and character documents of dnd-backend, in Dafny

dnd-backend is the Django service behind a tabletop role-playing campaign
manager. Players create campaigns, join them with a status, and store
character sheets. A status is 0 for player, 1 for master or 2 for owner. A
character sheet is an arbitrary JSON document tied to an owner and a campaign.
This project models four parts of it as pure functions over an immutable
store:

- **The character document accessor** of `Character` (dnd/models/character.py).
  - `_save_data` and `_load_data` store and read back the whole document.
  - `get(*path)` walks the document one subscript at a time, with Python's
    semantics: negative indices, an index into a string, and `None` on a
    KeyError, IndexError or TypeError.
  - `set(*path, **fields)` walks the same way and assigns the fields at the
    node it reaches.
- **The campaign handlers**, in two revisions.
  - The django-ninja API (dnd/api/campaign.py) takes typed requests. It
    answers a missing row with `get_object_or_404`.
  - The Django REST framework views (dnd/views/campaign.py) check raw JSON
    bodies and query strings by hand.
  - Both have create, get (one campaign or the list), add member and edit
    permissions.
- **The character handlers**: get and upload in both revisions
  (dnd/api/character.py and dnd/views/character.py), plus the older
  `upload_character` (dnd/views/upload.py).
- **`Role.is_valid`** (dnd/models/role.py).

A handler is a function `(State, request) -> Reply(status, body, after)`.
`State` holds players, campaigns, memberships keyed by (player id, campaign id),
and characters. `after` is the store once the handler returns. An exception
that nothing catches is a 500 with `ServerError` and leaves the store as it
was.

Modules, leaf first:

| file | module | what it holds |
|---|---|---|
| optional.dfy | `Optional` | `Option` |
| decimal.dfy | `Decimal` | `str(n)` and `int(s)` for decimal text |
| json_tree.dfy | `JsonTree` | the JSON tree, one subscript (`Child`), the path walk (`Get`, `Lookup`), in-place replacement |
| character_model.dfy | `CharacterModel` | `Character`, save/load, `get`, the intended `set` and the `set` as written |
| roles.dfy | `Roles` | `Role` and `is_valid` |
| py_value.dfy | `PyValue` | how the views read request values: truthiness, `isinstance(v, int)`, Django's lookup coercion, `v in [0, 1, 2]`, f-string rendering |
| store.dfy | `Store` | rows, replies, query helpers, fresh primary keys, store integrity (`Wf`) |
| campaign_api.dfy | `CampaignApi` | dnd/api/campaign.py |
| campaign_views.dfy | `CampaignViews` | dnd/views/campaign.py |
| character_api.dfy | `CharacterApi` | dnd/api/character.py |
| character_views.dfy | `CharacterViews` | dnd/views/character.py |
| upload_view.dfy | `UploadView` | dnd/views/upload.py |

Notes on how the code behaves, which the model follows:

- **Hidden private campaign in the API.** The comment at
  dnd/api/campaign.py:91 says a private campaign the requester may not see
  is to be disguised as non-existent. The handler does answer 404, but with
  a different body from a missing id (see Findings).
- **Private campaign in the views.** The views revision answers 403 for a
  private campaign the requester may not see.
  `CampaignViews.RevisionsOnSingleGet` states this against the API.
- **Two shapes of `Character`.** The model class in dnd/models/character.py
  has an owner `User`, no campaign, and the accessors `_save_data` and
  `_load_data`. The handlers create characters with an owner `Player` and a
  `campaign`, and call `save_data` and `load_data`. The model gives
  `Character` the owner and campaign the handlers use, and the accessor
  behaviour of `_save_data`/`_load_data`.
- **`private` and `verified` fields.** The `Campaign` class in
  dnd/models/campaign.py declares neither. Both get handlers read `private` (dnd/api/campaign.py:84, 96 and dnd/views/campaign.py:123, 134),
  and both create handlers pass `verified=` (dnd/api/campaign.py:45,
  dnd/views/campaign.py:57); with that class as shown, the keyword would be
  a TypeError on every create. The model gives `Campaign` both fields, as
  the handlers use them: `verified` copied from the creator, and `private`
  `False` for a new campaign, as no handler ever sets it.

## Model

| member | source | states |
|---|---|---|
| JsonTree.Child | dnd/models/character.py:31-32 | one subscript `cur[arg]` succeeds iff it is a present key of a dict, or an index in `-len .. len-1` of a list or a string; it yields the value under that key, the element at the resolved index, or the one-character string at that index; every other case is the caught KeyError, IndexError or TypeError |
| JsonTree.Position | dnd/models/character.py:29-33 | a Python index resolves iff it lies in `-len .. len-1`, and then names the slot congruent to it modulo `len` below `len` |
| JsonTree.Lookup | dnd/models/character.py:23-34 | the `for arg in args: cur = cur[arg]` loop returns exactly what the reference walk `Get` returns (failure at the first failed subscript), and the whole document for an empty path |
| JsonTree.GetAppend | dnd/models/character.py:29-34 | walking `p + q` is walking `p` and then `q` from where `p` ended |
| JsonTree.GetSnoc | dnd/models/character.py:29-34 | one more segment is one more subscript of the node reached |
| JsonTree.GetNoneIffStepFails | dnd/models/character.py:29-33 | the walk fails (the early `return None`) iff some prefix of the path resolves and the next segment is a missing key, an index out of range, or lands on a value that cannot be subscripted |
| JsonTree.ObjectIsAddressable | dnd/models/character.py:44-50 | a path that reaches a dict steps only through dicts and lists, so an assignment at its end updates the loaded document in place |
| JsonTree.GetReplace | dnd/models/character.py:49-51 | after the node at an addressable path is replaced, reading that path gives the new node |
| JsonTree.ReplaceSame | dnd/models/character.py:42-52 | replacing a node by itself gives back the same document |
| JsonTree.ReplaceApart | dnd/models/character.py:49-51 | replacing the node at `p` leaves every path that leaves `p` at some list or dict reading as before |
| CharacterModel.LoadData | dnd/models/character.py:14-17 | loading returns the stored document, and saving it back leaves the character as it was |
| CharacterModel.SaveData | dnd/models/character.py:19-21 | saving overwrites the document only; owner and campaign are kept |
| CharacterModel.SaveLoadRoundTrip | dnd/models/character.py:14-21 | load after save returns the saved document; save of the loaded document changes nothing |
| CharacterModel.GetAt | dnd/models/character.py:23-34 | the loop over `args` fails iff some prefix of the path resolves and the next subscript raises; with no `args` it reaches the whole document |
| CharacterModel.GetValue | dnd/models/character.py:23-34 | what `get` returns is `None` iff the walk fails or reaches a stored `null`; otherwise it is the node reached |
| CharacterModel.StoredNullLooksMissing | dnd/models/character.py:28-34 | on `{"hp": null}`, `get("hp")` and `get("xp")` both return `None`, although only the second walk fails |
| CharacterModel.GetEmptyPath | dnd/models/character.py:28-34 | `get()` with no path returns the whole stored document |
| CharacterModel.Set | dnd/models/character.py:36-52 | `set` returns `False` exactly when some segment fails, and then saves nothing; a successful walk keeps owner and campaign; it raises exactly when fields are assigned into a node that is not a dict |
| CharacterModel.SetRoundTrip | dnd/tests/test_character.py:79-83 | after a successful `set(path, f=v)`, `get(path + [f])` reads `v` |
| CharacterModel.SetKeepsOtherFields | dnd/models/character.py:49-51 | below the node reached, everything not under an assigned field reads as before |
| CharacterModel.SetKeepsElsewhere | dnd/models/character.py:42-52 | every path apart from the walked one reads the same before and after `set` |
| CharacterModel.SetNothingKeepsDocument | dnd/models/character.py:42-52 | `set` with no fields on a resolving path returns `True` and leaves the character as it was |
| CharacterModel.SetAsWritten | dnd/models/character.py:36-52 | as written, `set` still returns `False` exactly when the walk fails, and then stores nothing |
| CharacterModel.UnpackAssign | dnd/models/character.py:49-50 | as written, the loop completes iff every keyword name is two characters long; it then keeps every existing key, adds only one-character keys (each name's first character), and leaves every longer key as it was; the value stored under each added key is pinned only by `CharacterModel.SetAsWrittenTwoLetterKey` |
| CharacterModel.UnpackAssignRejects | dnd/models/character.py:49-50 | as written, a keyword whose name is not two characters long makes the loop raise ValueError |
| CharacterModel.SetAsWrittenRaises | dnd/models/character.py:49-50 | as written, `set` on a resolving path with any ordinary keyword name raises instead of returning |
| CharacterModel.WizardLookups | dnd/models/character.py:23-34 | on `{"info": {"charClass": "Wizard"}}`, `get("info", "charClass")` is `"Wizard"`, and a missing key or an index into a dict is `None` |
| CharacterModel.SetSorcererScenario | dnd/tests/test_character.py:79-83 | the test's `set("info", value="Sorcerer")` succeeds and reads back under the intended behaviour, and raises as written |
| CharacterModel.SetMissingPathScenario | dnd/tests/test_character.py:85-89 | `set("not_exist", ...)` returns `False` with the document unchanged, and `get("not_exist")` is `None` |
| CharacterModel.SetAsWrittenTwoLetterKey | dnd/models/character.py:49-50 | as written, `hp=10` stores `"p"` under `"h"` and never stores `hp`; the intended `set` stores `hp = 10` |
| Roles.IsValid | dnd/models/role.py:4-10 | `is_valid(n)` holds iff `n` is the value of some member of the enum |
| Roles.IsValidExactly | dnd/models/role.py:4-10 | the valid values are exactly 0 and 1 |
| Roles.OwnerStatusIsNotARole | dnd/models/role.py:4-10 | the owner status 2 that the campaign code writes is not a `Role` value |
| Decimal.ParseInt | dnd/views/character.py:47-50 | `int(s)` succeeds iff `s` is a run of digits, or a sign followed by one; the value is the digits' value, negated after a `-` and unchanged after a `+`, and only a `-` gives a negative number |
| Decimal.IntStr | dnd/views/campaign.py:258-262 | `str(n)` is non-empty, starts with `-` iff `n` is negative, and is digits with no leading zero apart from `"0"` itself |
| Decimal.ParseIntStr | dnd/views/campaign.py:136-140 | `int(str(n)) == n` for every integer `n` |
| Decimal.ParseIntNeedsDigits | dnd/views/character.py:47-50 | an empty string or a lone sign is a ValueError for `int` |
| PyValue.Field | dnd/views/campaign.py:224-227 | `request.data.get(name)` is the field's value when it is present, and `None` when it is absent or an explicit `null` |
| PyValue.Truthy | dnd/views/campaign.py:229 | a value is falsy exactly when it is `None`, `False`, `0`, `""`, `[]` or `{}` |
| PyValue.TruthyInt | dnd/views/campaign.py:43-45 | `not v or not isinstance(v, int)` lets through exactly the non-zero integers and `True` (a `bool` is an `int`) |
| PyValue.LookupInt | dnd/views/campaign.py:178-181 | a lookup reads an int or bool as its integer value and a string through `int()`; a list or dict raises |
| PyValue.StatusChoice | dnd/views/campaign.py:234-235 | `status in [0, 1, 2]` holds exactly for 0, 1, 2 and the booleans, and the stored status is in 0..2 |
| PyValue.Document | dnd/views/character.py:105-107 | `not data or not isinstance(data, dict)` lets through exactly the non-empty objects, unchanged |
| Store.Least | dnd/views/campaign.py:46-49 | `.first()` of a non-empty player query is one of its rows, the one with the lowest id |
| Store.FreshId | dnd/models/player.py:5 | an auto-assigned primary key is positive and above every key in use |
| CampaignApi.Create | dnd/api/campaign.py:34-66 | only 201, 404 or 500: 404 iff no player has the telegram id, 500 iff several do; otherwise 201 "created" with exactly one campaign added (creator's `verified`, title, description or `""`) and exactly one owner membership for the creator; nothing changes on failure |
| CampaignApi.CreateAddsOneOfEach | dnd/api/campaign.py:43-65 | when exactly one player has the telegram id, create succeeds and grows campaigns and memberships by exactly one each |
| CampaignApi.CreateScenario | dnd/api/campaign.py:34-66 | a verified player creating "Camp1" gets 201 "created", a verified campaign of that title, and ownership of it |
| CampaignApi.CampaignAddedPreservesWf | dnd/api/campaign.py:43-65 | adding one campaign with a positive fresh key and one owner membership for an existing player keeps the store well formed |
| CampaignApi.CreatePreservesWf | dnd/api/campaign.py:43-65 | create keeps every foreign key pointing at a row, every key positive and every status in 0..2 |
| CampaignApi.GetCampaignAsWritten | dnd/api/campaign.py:76-106 | as written, a campaign id answers 200 exactly when the requester may see the campaign; without one the answer is the list; the store is unchanged |
| CampaignApi.GetCampaign | dnd/api/campaign.py:76-106 | a campaign id answers 200 with that campaign iff it exists and is public or the requester is a member; otherwise 404 with the not-found body; without a campaign id the answer is the list |
| CampaignApi.PrivateLooksMissing | dnd/api/campaign.py:84-92 | a private campaign hidden from the requester gets exactly the reply of a missing id |
| CampaignApi.PrivateAsWrittenDiffers | dnd/api/campaign.py:82-92 | as written, a hidden private campaign and a missing id both give 404 but with different replies |
| CampaignApi.GetCampaignDiffersOnlyInHiddenBody | dnd/api/campaign.py:81-94 | the corrected handler has the same status as the source on every request, and differs only in the body of the hidden-campaign 404 |
| CampaignApi.ListCampaigns | dnd/api/campaign.py:96-106 | the list holds exactly the public campaigns plus, when `user_id` is given, those the user is a member of |
| CampaignApi.ListMatchesSingle | dnd/api/campaign.py:81-106 | in a well-formed store a campaign is listed iff the single form answers 200 for it with the same requester |
| CampaignApi.Add | dnd/api/campaign.py:118-143 | 404 for a missing campaign, 403 unless the caller owns it, then 404 for a missing player; otherwise the membership is set to status 0, with 201 iff it did not exist; failures change nothing |
| CampaignApi.AddPreservesWf | dnd/api/campaign.py:132-138 | add keeps the store well formed |
| CampaignApi.AddTwiceSettles | dnd/api/campaign.py:132-143 | adding the same member again answers 200 and changes nothing more |
| CampaignApi.OwnerReAddingSelfIsDemoted | dnd/api/campaign.py:125-138 | an owner who adds themself is reset to status 0 and is then refused with 403 |
| CampaignApi.EditPermissions | dnd/api/campaign.py:155-183 | 400 iff the status is outside 0..2, checked before anything else; 403 iff the caller does not own the existing campaign; 200 iff the target already has a membership, whose status alone changes; no membership is ever created |
| CampaignApi.EditPreservesWf | dnd/api/campaign.py:177-178 | edit-permissions keeps the store well formed |
| CampaignApi.AddThenEdit | dnd/api/campaign.py:118-183 | a member the owner adds can then be given any status 0..2 by an edit, and holds it |
| CampaignViews.Create | dnd/views/campaign.py:42-80 | 400 for a telegram id that is not a truthy int; 404 when no player has it, before the title is looked at; 400 for a title that is not a non-empty string; otherwise 201 with one campaign owned by the lowest-id matching player |
| CampaignViews.CreatePreservesWf | dnd/views/campaign.py:55-79 | create keeps the store well formed |
| CampaignViews.GetCampaign | dnd/views/campaign.py:114-150 | for a campaign id that reads as an integer: 200 with the campaign iff visible, 404 iff missing, 403 for a private one the requester may not see when `user_id` is absent or names a non-member, 500 when a private campaign meets a `user_id` that is not an integer, and never 400; for the list: 400 iff `user_id` is given and not an integer, else exactly the visible campaigns; nothing changes |
| CampaignViews.RevisionsOnSingleGet | dnd/views/campaign.py:123-130 | in a well-formed store, for any requester (including `user_id=0`, which the API reads as absent and the views look up), the two revisions agree on a visible or a missing campaign, and on a hidden private one the API answers 404 and the views 403 |
| CampaignViews.Add | dnd/views/campaign.py:168-206 | 400 iff one of the three ids is falsy; then, in that order, 404 "Campaign not found" for an unknown campaign, 403 for a caller who does not own it, and 404 "User not found" for an unknown target; when all ids read as integers (a string such as `"5"` included), the campaign exists, the caller owns it and the target exists, the answer is 200 or 201; on 200/201 the campaign exists, the caller owns it, the target player exists, and the membership is set to status 0 (201 iff new); any other answer changes nothing |
| CampaignViews.AddStringIds | dnd/views/campaign.py:168-206 | ids sent as decimal strings are turned into integers by the lookups, and a valid add with them answers 200 or 201 and sets the membership to status 0 |
| CampaignViews.AddRevisionsAgree | dnd/views/campaign.py:168-206 | on non-zero integer ids the two revisions of add give the same status and the same store |
| CampaignViews.AddPreservesWf | dnd/views/campaign.py:196-201 | add keeps the store well formed |
| CampaignViews.EditPermissions | dnd/views/campaign.py:223-263 | 400 iff an id is falsy, `status` is absent or null, or it is not in `[0, 1, 2]`; then, in that order, 404 "Campaign not found", 403 for a non-owner caller, 404 "Membership not found"; when all ids read as integers, the campaign exists, the caller owns it and the membership exists, the answer is 200, the membership takes the new status and the message names user and status; on 200 exactly that holds; no membership is created |
| CampaignViews.EditRevisionsAgree | dnd/views/campaign.py:223-263 | on non-zero integer ids and any integer status the two revisions of edit-permissions give the same status and the same store |
| CampaignViews.EditStatusZeroIsPresent | dnd/views/campaign.py:229-235 | a status of 0 is accepted as present and demotes the member to player |
| CampaignViews.EditPreservesWf | dnd/views/campaign.py:255-256 | edit-permissions keeps the store well formed |
| CharacterApi.GetCharacter | dnd/api/character.py:21-30 | 404 iff the id is unknown; 200 iff the character's owner resolves, with the stored document, the owner, the owner's telegram id and the campaign |
| CharacterApi.GetOnWfStore | dnd/api/character.py:24-30 | in a well-formed store every character whose owner is set can be read |
| CharacterApi.Upload | dnd/api/character.py:41-55 | 404 iff the owner or the campaign is unknown, with nothing created; otherwise 201 echoing the uploaded document, with exactly one new character holding it |
| CharacterApi.UploadThenGet | dnd/api/character.py:21-55 | reading back an uploaded character gives 200 with the very body the upload answered |
| CharacterApi.UploadUnknownCreatesNothing | dnd/api/character.py:42-44 | an unknown owner or campaign creates no character |
| CharacterApi.UploadAddsOne | dnd/api/character.py:46-47 | a successful upload adds exactly one character |
| CharacterApi.UploadPreservesWf | dnd/api/character.py:46-47 | upload keeps the store well formed |
| CharacterViews.GetCharacter | dnd/views/character.py:46-66 | 400 iff `char_id` is missing, not an integer or zero; 404 iff unknown; for a known id, in any text `int()` accepts such as `"05"` or `"+5"`, 200 iff the owner resolves, with the stored document, owner's telegram id and campaign |
| CharacterViews.GetRevisionsAgree | dnd/views/character.py:46-66 | on every non-zero id the two revisions of get agree on status, and on success on document, telegram id and campaign |
| CharacterViews.Upload | dnd/views/character.py:88-119 | owner id checked (400) and looked up (404), then campaign id likewise, then `data` must be a non-empty object (400); on 201 exactly one character holding `data`, linked to owner and campaign; otherwise nothing changes |
| CharacterViews.UploadThenGet | dnd/views/character.py:46-119 | a character uploaded through the views reads back through the views with its document and campaign |
| CharacterViews.UploadRevisionsAgree | dnd/views/character.py:88-119 | with a non-empty object as document the two revisions of upload give the same status and the same store |
| CharacterViews.UploadPreservesWf | dnd/views/character.py:109-110 | upload keeps the store well formed |
| UploadView.Upload | dnd/views/upload.py:12-32 | 400 iff the owner id is not a truthy int, names no player, or `data` is not a non-empty object; then 500 iff `char_name` is a list or dict (not hashable); otherwise 201 with one character in no campaign; failures change nothing |
| UploadView.UploadAddsOne | dnd/views/upload.py:29-32 | a successful upload adds exactly one character, owned by the given player and in no campaign |
| UploadView.UnknownOwnerRevisions | dnd/views/upload.py:16-18 | an unknown owner is a 400 here but a 404 in the later upload view, and neither creates anything |
| UploadView.ExampleUpload | dnd/tests/test_upload.py:10-26 | the test's upload of a document for player 1 answers 201 and leaves exactly one character |
| UploadView.UploadPreservesWf | dnd/views/upload.py:29-30 | upload keeps the store well formed |

## Left out

- Campaign icons: base64 decoding, PIL re-encoding and image storage are not modelled. A malformed icon's 500 is not modelled either.
- Serialisation: `json.dumps` and `json.load` are taken as the identity on the JSON tree. The file-blob naming, the storage backend and `validate_json` are not part of this model.
- JSON numbers are integers only. Floating-point values are not modelled, so neither is `1.0 in [0, 1, 2]`.
- Decimal.ParseInt: `int()` also accepts surrounding whitespace, `_` digit separators and non-ASCII Unicode decimal digits such as `"٣"`. These forms are not modelled, so such text reads as a ValueError here.
- PyValue.LookupInt: Django's coercion of other value kinds for an integer lookup, such as floats, is not modelled. Neither is a `null` lookup value, which Django compiles to `IS NULL`; no handler passes one, since each rejects falsy ids first.
- CharacterApi.UploadThenGet and CharacterViews.UploadThenGet hold because the store keeps the row as it stands in memory after `save_data`. `_save_data` in dnd/models/character.py passes `save=False`, and the upload handlers never call `save()` afterwards (dnd/api/character.py:46-47, dnd/views/character.py:109-110, dnd/views/upload.py:29-30). With that accessor the stored row would keep the empty file name that `create` gave it. The `save_data` the handlers call is not part of this model.
- Duplicate memberships: `members` holds at most one membership per (player, campaign) pair. The schema does not forbid two, and with two the `get_or_create` of add and the `.get` of edit-permissions raise MultipleObjectsReturned (a 500). That case is not modelled.
- Request bodies that are not JSON objects: `Payload` is a map from names to values, so a body such as `[1]`, `"x"`, `3` or `null` cannot be given to a views handler. In the source, `request.data.get(...)` on such a body raises AttributeError, a 500, in every views handler (dnd/views/campaign.py:43, 169, 224; dnd/views/character.py:89; dnd/views/upload.py:13).
- Exceptions are not told apart: every uncaught one is a 500 with `ServerError`.
- ninja's schema validation happens before the typed handlers run, and so does its 400 reply. The API models start from already-typed requests.
- The ninja `UploadCharacter` and `CharacterOut` schemas are not part of this model. `CharacterApi.Upload` accepts any JSON document as `data`.
- Responses: the serialised field names and the order of a campaign list are not modelled. A list is the set of campaign ids.
- Races: the lost-update races of add's get-or-create-then-update and of `set`'s load-modify-save are not modelled. Handlers run one at a time.
- `char_name` in dnd/views/upload.py: the value of `hash(char_name) % 10000` is randomised and never used. Only its TypeError on an unhashable value is modelled.
- The `path` query parameter, which the tests send to the character view, does not appear in the view's source. It is not modelled beyond `Character.get` itself.
- Player registration, the legacy User/Room/Participation models, ping, routing, swagger schemas and the error-handler wiring are not modelled.
- CampaignApi.GetCampaignAsWritten: its contract states only the status for a campaign id. Its bodies are stated by `CampaignApi.PrivateAsWrittenDiffers`, because it is the as-written half of a finding.

## Findings

| source | as written | input that shows it | evidently intended | confidence | as-written member | corrected member |
|---|---|---|---|---|---|---|
| dnd/models/character.py:49-50 | `for n, v in kwargs: cur[n] = v` iterates the keyword NAMES and unpacks each name string into two characters | `set("info", value="Sorcerer")` on `{"info": {"charClass": "Wizard"}}` raises ValueError instead of returning `True` (`CharacterModel.SetSorcererScenario`); `set("info", hp=10)` stores `"h": "p"` (`CharacterModel.SetAsWrittenTwoLetterKey`) | assign each keyword's value under its name, as in `kwargs.items()`, so that `get(path + [f])` reads `v` | high; not executed | CharacterModel.SetAsWritten | CharacterModel.Set |
| dnd/api/campaign.py:84-92 | a hidden private campaign raises `HttpError(404, "requested campaign does not exist")`, rendered as `{"detail": ...}`, while a missing id goes through the registered `Http404` handler and renders `NotFoundError()` | a store whose only campaign, 1, is private and has no members: `campaign_id=1` and `campaign_id=2` both give 404 with different bodies (`CampaignApi.PrivateAsWrittenDiffers`) | disguise the private campaign as non-existent, as the comment says: the same reply as a missing id | medium; not executed | CampaignApi.GetCampaignAsWritten | CampaignApi.GetCampaign |

=== FILE: campaign_api.dfy ===
/**
 * The campaign handlers of dnd/api/campaign.py (the django-ninja revision).
 * Requests arrive already validated against their schemas, so ids are ints;
 * `get_object_or_404` answers 404 with the `NotFoundError` body that the
 * registered `Http404` handler renders.
 */
module CampaignApi {
  import opened Optional
  import opened Store
  import Decimal

  /** `CreateCampaignRequest` without its icon. */
  datatype CreateRequest = CreateRequest(telegramId: int, title: string, description: Option<string>)

  /** `if campaign_request.description:` then that text, else the column default `""`. */
  function DescriptionOf(d: Option<string>): string {
    if d.Some? && d.value != "" then d.value else ""
  }

  /**
   * `s'` is `s` with exactly one campaign added, `id`, holding the creator's
   * `verified` flag, and exactly one membership added, the creator as owner.
   */
  predicate CampaignAdded(s: State, s': State, creator: int, id: int, title: string, description: string)
    requires creator in s.players
  {
    && id >= 1 && id !in s.campaigns
    && s'.campaigns.Keys == s.campaigns.Keys + {id}
    && s'.campaigns[id] == Campaign(title, description, s.players[creator].verified, false)
    && (forall c :: c in s.campaigns ==> s'.campaigns[c] == s.campaigns[c])
    && s'.members.Keys == s.members.Keys + {(creator, id)}
    && s'.members[(creator, id)] == OwnerStatus
    && (forall k :: k in s.members && k != (creator, id) ==> s'.members[k] == s.members[k])
    && s'.players == s.players
    && s'.characters == s.characters
  }

  /**
   * `create_campaign_api`. The player is looked up by telegram id with
   * `get_object_or_404`: none is a 404, several raise MultipleObjectsReturned,
   * which nothing catches (500). Otherwise a campaign is created with the
   * player's `verified` flag and the player becomes its owner.
   */
  function Create(s: State, req: CreateRequest): (r: Reply)
    ensures r.status in {201, 404, 500}
    ensures r.status == 404 <==> PlayersWithTelegram(s, req.telegramId) == {}
    ensures r.status == 500 <==> |PlayersWithTelegram(s, req.telegramId)| > 1
    ensures r.status != 201 ==> r.after == s
    ensures r.status == 201 ==>
      && r.body == Message("created")
      && exists p, c :: PlayersWithTelegram(s, req.telegramId) == {p}
           && CampaignAdded(s, r.after, p, c, req.title, DescriptionOf(req.description))
  {
    var found := PlayersWithTelegram(s, req.telegramId);
    if found == {} then Reply(404, NotFoundDefault, s)
    else if |found| > 1 then Reply(500, ServerError, s)
    else
      var p := Least(found);
      OnlyElement(found, p);
      var id := FreshId(s.campaigns.Keys);
      var campaign := Campaign(req.title, DescriptionOf(req.description), s.players[p].verified, false);
      var s' := s.(campaigns := s.campaigns[id := campaign],
                   members := s.members[(p, id) := OwnerStatus]);
      assert CampaignAdded(s, s', p, id, req.title, DescriptionOf(req.description));
      Reply(201, Message("created"), s')
  }

  /** `if x:` on an optional int parameter: present and not zero. */
  predicate Given(x: Option<int>) {
    x.Some? && x.value != 0
  }

  /** Who may see campaign `c`: anyone when it is public, only its members when it is private. */
  predicate CanSee(s: State, c: int, user: Option<int>) {
    c in s.campaigns && (!s.campaigns[c].private || (Given(user) && IsMember(s, user.value, c)))
  }

  /** Query parameters of `get_campaign_info_api`. */
  datatype GetQuery = GetQuery(campaignId: Option<int>, userId: Option<int>)

  /** The message of the `HttpError` raised for a private campaign. */
  const HiddenMessage: string := "requested campaign does not exist"

  /**
   * `get_campaign_info_api` as written. A private campaign the requester may
   * not see raises `HttpError(404, ...)`, whose body (`{"detail": ...}`) is
   * not the body of a missing id (`NotFoundError()` from the `Http404`
   * handler), so the two 404s can be told apart.
   */
  function GetCampaignAsWritten(s: State, q: GetQuery): (r: Reply)
    ensures r.after == s
    ensures Given(q.campaignId) ==> (r.status == 200 <==> CanSee(s, q.campaignId.value, q.userId))
    ensures !Given(q.campaignId) ==> r == ListCampaigns(s, q.userId)
  {
    if Given(q.campaignId) then
      var c := q.campaignId.value;
      if c !in s.campaigns then Reply(404, NotFoundDefault, s)
      else if s.campaigns[c].private && (!Given(q.userId) || !IsMember(s, q.userId.value, c)) then
        Reply(404, Detail(HiddenMessage), s)
      else Reply(200, CampaignInfo(c, s.campaigns[c]), s)
    else ListCampaigns(s, q.userId)
  }

  /**
   * `get_campaign_info_api` with the disguise its comment intends: a
   * private campaign the requester may not see gets exactly the reply of a
   * missing id.
   */
  function GetCampaign(s: State, q: GetQuery): (r: Reply)
    ensures r.after == s
    ensures Given(q.campaignId) ==> r.status in {200, 404}
    ensures Given(q.campaignId) ==> (r.status == 200 <==> CanSee(s, q.campaignId.value, q.userId))
    ensures Given(q.campaignId) && r.status == 200 ==>
      r.body == CampaignInfo(q.campaignId.value, s.campaigns[q.campaignId.value])
    ensures Given(q.campaignId) && r.status == 404 ==> r.body == NotFoundDefault
    ensures !Given(q.campaignId) ==> r == ListCampaigns(s, q.userId)
  {
    if Given(q.campaignId) then
      var c := q.campaignId.value;
      if c !in s.campaigns then Reply(404, NotFoundDefault, s)
      else if s.campaigns[c].private && (!Given(q.userId) || !IsMember(s, q.userId.value, c)) then
        Reply(404, NotFoundDefault, s)
      else Reply(200, CampaignInfo(c, s.campaigns[c]), s)
    else ListCampaigns(s, q.userId)
  }

  /**
   * The list form: the public campaigns, united with the campaigns the user
   * holds any membership in when `user_id` is given. Their order is left out.
   */
  function ListCampaigns(s: State, user: Option<int>): (r: Reply)
    ensures r.after == s && r.status == 200 && r.body.CampaignList?
    ensures forall c :: c in r.body.ids <==> CanSee(s, c, user)
  {
    var ids := if Given(user) then PublicCampaigns(s) + MemberCampaigns(s, user.value) else PublicCampaigns(s);
    Reply(200, CampaignList(ids), s)
  }

  /** A private campaign hidden from the requester is answered exactly as a missing id is. */
  lemma PrivateLooksMissing(s: State, c: int, missing: int, user: Option<int>)
    requires c != 0 && missing != 0 && missing !in s.campaigns
    requires c in s.campaigns && s.campaigns[c].private
    requires !(Given(user) && IsMember(s, user.value, c))
    ensures GetCampaign(s, GetQuery(Some(c), user)) == GetCampaign(s, GetQuery(Some(missing), user))
  {
  }

  /**
   * As written, the two 404s differ: a private campaign 1 with no members
   * answers `{"detail": ...}`, a missing id 2 answers `NotFoundError()`.
   */
  lemma PrivateAsWrittenDiffers()
    ensures var s := State(map[], map[1 := Campaign("hidden", "", false, true)], map[], map[]);
      && GetCampaignAsWritten(s, GetQuery(Some(1), None)).status == 404
      && GetCampaignAsWritten(s, GetQuery(Some(2), None)).status == 404
      && GetCampaignAsWritten(s, GetQuery(Some(1), None)) != GetCampaignAsWritten(s, GetQuery(Some(2), None))
  {
  }

  /** The corrected handler differs from the source only in the body of that one 404. */
  lemma GetCampaignDiffersOnlyInHiddenBody(s: State, q: GetQuery)
    ensures GetCampaign(s, q).status == GetCampaignAsWritten(s, q).status
    ensures GetCampaign(s, q) != GetCampaignAsWritten(s, q) ==>
      GetCampaignAsWritten(s, q).body == Detail(HiddenMessage) && GetCampaign(s, q).body == NotFoundDefault
  {
  }

  /**
   * The list form lists exactly the campaigns the single form would show
   * the same requester (campaign ids are positive, so none reads as "no id").
   */
  lemma ListMatchesSingle(s: State, user: Option<int>, c: int)
    requires Wf(s)
    ensures c in ListCampaigns(s, user).body.ids <==> (c != 0 && GetCampaign(s, GetQuery(Some(c), user)).status == 200)
  {
  }

  /** `User {u} added to campaign {c}` */
  function AddedMessage(user: int, campaign: int): string {
    "User " + Decimal.IntStr(user) + " added to campaign " + Decimal.IntStr(campaign)
  }

  /** `AddToCampaignRequest` */
  datatype AddRequest = AddRequest(campaignId: int, ownerId: int, userId: int)

  /**
   * `s'` is `s` with the membership of `(user, campaign)` present with
   * status `status`, every other membership and every other table as before.
   */
  predicate MembershipSet(s: State, s': State, user: int, campaign: int, status: int) {
    && s'.members.Keys == s.members.Keys + {(user, campaign)}
    && s'.members[(user, campaign)] == status
    && (forall k :: k in s.members && k != (user, campaign) ==> s'.members[k] == s.members[k])
    && s'.players == s.players && s'.campaigns == s.campaigns && s'.characters == s.characters
  }

  /**
   * `add_to_campaign_api`: campaign (404), then the caller's owner
   * membership (403), then the target player (404); then `get_or_create`
   * the membership with status 0, resetting the status of one that existed.
   */
  function Add(s: State, req: AddRequest): (r: Reply)
    ensures r.status in {200, 201, 403, 404}
    ensures r.status == 404 <==>
      req.campaignId !in s.campaigns || (IsOwner(s, req.ownerId, req.campaignId) && req.userId !in s.players)
    ensures r.status == 403 <==> req.campaignId in s.campaigns && !IsOwner(s, req.ownerId, req.campaignId)
    ensures r.status in {403, 404} ==> r.after == s
    ensures r.status in {200, 201} ==>
      && MembershipSet(s, r.after, req.userId, req.campaignId, PlayerStatus)
      && r.body == Message(AddedMessage(req.userId, req.campaignId))
    ensures r.status == 201 <==> r.status in {200, 201} && !IsMember(s, req.userId, req.campaignId)
  {
    var c := req.campaignId;
    if c !in s.campaigns then Reply(404, NotFoundDefault, s)
    else if !IsOwner(s, req.ownerId, c) then Reply(403, Message("Only the owner can add members"), s)
    else if req.userId !in s.players then Reply(404, NotFoundDefault, s)
    else
      var created := !IsMember(s, req.userId, c);
      var s' := s.(members := s.members[(req.userId, c) := PlayerStatus]);
      Reply(if created then 201 else 200, Message(AddedMessage(req.userId, c)), s')
  }

  /** `CampaignEditPermissions` */
  datatype EditRequest = EditRequest(campaignId: int, ownerId: int, userId: int, status: int)

  /** `Updated user {u} role to {status} in campaign {c}` */
  function UpdatedMessage(user: string, status: string, campaign: int): string {
    "Updated user " + user + " role to " + status + " in campaign " + Decimal.IntStr(campaign)
  }

  /**
   * `edit_permissions_api`: the status is checked first (400), then the
   * campaign (404), the caller's ownership (403) and the target membership
   * (404); only an existing membership's status is changed.
   */
  function EditPermissions(s: State, req: EditRequest): (r: Reply)
    ensures r.status in {200, 400, 403, 404}
    ensures r.status == 400 <==> !(0 <= req.status <= 2)
    ensures r.status == 403 <==>
      0 <= req.status <= 2 && req.campaignId in s.campaigns && !IsOwner(s, req.ownerId, req.campaignId)
    ensures r.status == 200 <==>
      0 <= req.status <= 2 && req.campaignId in s.campaigns && IsOwner(s, req.ownerId, req.campaignId) && IsMember(s, req.userId, req.campaignId)
    ensures r.after.members.Keys == s.members.Keys
    ensures r.status != 200 ==> r.after == s
    ensures r.status == 200 ==> MembershipSet(s, r.after, req.userId, req.campaignId, req.status)
  {
    if !(req.status in [0, 1, 2]) then Reply(400, Message("Invalid status value"), s)
    else
      var c := req.campaignId;
      if c !in s.campaigns then Reply(404, NotFoundDefault, s)
      else if !IsOwner(s, req.ownerId, c) then Reply(403, Message("Only the owner can edit permissions"), s)
      else if !IsMember(s, req.userId, c) then Reply(404, NotFoundDefault, s)
      else
        var s' := s.(members := s.members[(req.userId, c) := req.status]);
        Reply(200, Message(UpdatedMessage(Decimal.IntStr(req.userId), Decimal.IntStr(req.status), c)), s')
  }

  /** Creating a campaign keeps the store well formed. */
  lemma CreatePreservesWf(s: State, req: CreateRequest)
    requires Wf(s)
    ensures Wf(Create(s, req).after)
  {
    var r := Create(s, req);
    if r.status == 201 {
      var p, c :| PlayersWithTelegram(s, req.telegramId) == {p}
                  && CampaignAdded(s, r.after, p, c, req.title, DescriptionOf(req.description));
      CampaignAddedPreservesWf(s, r.after, p, c, req.title, DescriptionOf(req.description));
    }
  }

  /** Adding a campaign and its owner's membership keeps the store well formed. */
  lemma CampaignAddedPreservesWf(s: State, s': State, creator: int, id: int, title: string, description: string)
    requires Wf(s) && creator in s.players
    requires CampaignAdded(s, s', creator, id, title, description)
    ensures Wf(s')
  {
    forall k | k in s'.members
      ensures k.0 in s'.players && k.1 in s'.campaigns && 0 <= s'.members[k] <= 2
    {
      if k != (creator, id) {
        assert k in s.members;
      }
    }
  }

  /** A successful create adds exactly one campaign and exactly one membership. */
  lemma CreateAddsOneOfEach(s: State, req: CreateRequest)
    requires Wf(s)
    requires |PlayersWithTelegram(s, req.telegramId)| == 1
    ensures Create(s, req).status == 201
    ensures |Create(s, req).after.campaigns| == |s.campaigns| + 1
    ensures |Create(s, req).after.members| == |s.members| + 1
  {
    var s' := Create(s, req).after;
    var p, c :| PlayersWithTelegram(s, req.telegramId) == {p}
                && CampaignAdded(s, s', p, c, req.title, DescriptionOf(req.description));
    assert (p, c) !in s.members;
    assert s'.campaigns.Keys == s.campaigns.Keys + {c};
    assert |s'.campaigns.Keys| == |s.campaigns.Keys| + 1;
    assert |s'.members.Keys| == |s.members.Keys| + 1;
  }

  /**
   * A worked create: verified player 7 (telegram id 100) creates
   * "Camp1" in an empty store: 201 "created", a verified campaign, and 7 as
   * its owner.
   */
  lemma CreateScenario()
    ensures var s := State(map[7 := Player(100, true)], map[], map[], map[]);
      var r := Create(s, CreateRequest(100, "Camp1", None));
      && r.status == 201 && r.body == Message("created")
      && exists c :: c in r.after.campaigns && r.after.campaigns[c].title == "Camp1"
           && r.after.campaigns[c].verified && IsOwner(r.after, 7, c)
  {
    var s := State(map[7 := Player(100, true)], map[], map[], map[]);
    assert PlayersWithTelegram(s, 100) == {7};
    var r := Create(s, CreateRequest(100, "Camp1", None));
    var p, c :| PlayersWithTelegram(s, 100) == {p} && CampaignAdded(s, r.after, p, c, "Camp1", "");
    assert p == 7;
    assert IsOwner(r.after, 7, c);
  }

  /** Adding a member keeps the store well formed. */
  lemma AddPreservesWf(s: State, req: AddRequest)
    requires Wf(s)
    ensures Wf(Add(s, req).after)
  {
  }

  /** Editing permissions keeps the store well formed. */
  lemma EditPreservesWf(s: State, req: EditRequest)
    requires Wf(s)
    ensures Wf(EditPermissions(s, req).after)
  {
  }

  /**
   * Re-adding a member is not a no-op on its value: whatever role the member
   * held (master or owner), the second add answers 200 and leaves status 0.
   */
  lemma AddTwiceSettles(s: State, req: AddRequest)
    requires req.ownerId != req.userId
    requires Add(s, req).status in {200, 201}
    ensures Add(Add(s, req).after, req).status == 200
    ensures Add(Add(s, req).after, req).after == Add(s, req).after
  {
    var s1 := Add(s, req).after;
    assert IsOwner(s1, req.ownerId, req.campaignId);
    assert s1.members[(req.userId, req.campaignId) := PlayerStatus] == s1.members;
  }

  /** An owner who adds themself is demoted to player and loses the right to add or edit. */
  lemma OwnerReAddingSelfIsDemoted(s: State, c: int, o: int)
    requires c in s.campaigns && IsOwner(s, o, c) && o in s.players
    ensures Add(s, AddRequest(c, o, o)).status == 200
    ensures !IsOwner(Add(s, AddRequest(c, o, o)).after, o, c)
    ensures Add(Add(s, AddRequest(c, o, o)).after, AddRequest(c, o, o)).status == 403
  {
  }

  /** A member added by the owner and then given a status by an edit holds that status. */
  lemma AddThenEdit(s: State, c: int, o: int, u: int, status: int)
    requires o != u && 0 <= status <= 2
    requires Add(s, AddRequest(c, o, u)).status in {200, 201}
    ensures EditPermissions(Add(s, AddRequest(c, o, u)).after, EditRequest(c, o, u, status)).status == 200
    ensures EditPermissions(Add(s, AddRequest(c, o, u)).after, EditRequest(c, o, u, status)).after.members[(u, c)] == status
  {
  }
}

=== FILE: campaign_views.dfy ===
/**
 * The campaign handlers of dnd/views/campaign.py (the Django REST framework
 * revision). Bodies are raw JSON objects and query parameters raw strings,
 * checked by hand; a value Django cannot turn into an integer for a lookup
 * raises, and nothing catches it (500).
 */
module CampaignViews {
  import opened Optional
  import opened JsonTree
  import opened Store
  import opened PyValue
  import Decimal
  import CampaignApi

  /** The title the guard `if not title or not isinstance(title, str): 400` lets through. */
  function TitleOf(v: Json): Option<string> {
    if v.JStr? && v.s != "" then Some(v.s) else None
  }

  /** `if desc and isinstance(desc, str)` then that text, else the column default `""`. */
  function DescriptionOf(v: Json): string {
    if v.JStr? && v.s != "" then v.s else ""
  }

  /**
   * `create_campaign_view`: `telegram_id` must be a truthy int (400), some
   * player must have it (404), and only then is the title checked (400).
   * Of several players with the telegram id, `.first()` takes the lowest id.
   */
  function Create(s: State, body: Payload): (r: Reply)
    ensures r.status in {201, 400, 404}
    ensures r.status == 404 <==>
      TruthyInt(Field(body, "telegram_id")).Some?
      && PlayersWithTelegram(s, TruthyInt(Field(body, "telegram_id")).value) == {}
    ensures r.status == 201 <==>
      TruthyInt(Field(body, "telegram_id")).Some?
      && PlayersWithTelegram(s, TruthyInt(Field(body, "telegram_id")).value) != {}
      && TitleOf(Field(body, "title")).Some?
    ensures r.status != 201 ==> r.after == s
    ensures r.status == 201 ==>
      var found := PlayersWithTelegram(s, TruthyInt(Field(body, "telegram_id")).value);
      exists p, c :: p in found && (forall q :: q in found ==> p <= q)
        && CampaignApi.CampaignAdded(s, r.after, p, c, TitleOf(Field(body, "title")).value,
                                     DescriptionOf(Field(body, "description")))
  {
    var tid := TruthyInt(Field(body, "telegram_id"));
    if tid.None? then Reply(400, NoContent, s)
    else
      var found := PlayersWithTelegram(s, tid.value);
      if found == {} then Reply(404, NoContent, s)
      else
        var p := Least(found);
        var title := TitleOf(Field(body, "title"));
        if title.None? then Reply(400, NoContent, s)
        else
          var id := FreshId(s.campaigns.Keys);
          var description := DescriptionOf(Field(body, "description"));
          var campaign := Campaign(title.value, description, s.players[p].verified, false);
          var s' := s.(campaigns := s.campaigns[id := campaign],
                       members := s.members[(p, id) := OwnerStatus]);
          assert CampaignApi.CampaignAdded(s, s', p, id, title.value, description);
          Reply(201, NoContent, s')
  }

  /** Query parameters of `get_campaign_info_view`, as text. */
  datatype GetParams = GetParams(campaignId: Param, userId: Param)

  /** The requester a `user_id` parameter names, when it is given and reads as an integer. */
  function Viewer(p: Param): Option<int> {
    if ParamTruthy(p) then Decimal.ParseInt(p.value) else None
  }

  /** Who may see campaign `c` in this revision. */
  predicate Visible(s: State, c: int, viewer: Option<int>) {
    c in s.campaigns && (!s.campaigns[c].private || (viewer.Some? && IsMember(s, viewer.value, c)))
  }

  /**
   * `get_campaign_info_view`. With a `campaign_id`: 404 when missing, and a
   * private campaign the requester may not see is refused with 403 (this
   * revision admits that it exists). Without one: the list, where a
   * `user_id` that is not an integer is a 400.
   */
  function GetCampaign(s: State, q: GetParams): (r: Reply)
    ensures r.after == s
    ensures r.status in {200, 400, 403, 404, 500}
    ensures ParamTruthy(q.campaignId) && Decimal.ParseInt(q.campaignId.value).Some? ==> r.status != 400
    ensures ParamTruthy(q.campaignId) && Decimal.ParseInt(q.campaignId.value).None? ==> r.status == 500
    ensures ParamTruthy(q.campaignId) && Decimal.ParseInt(q.campaignId.value).Some? ==>
      var c := Decimal.ParseInt(q.campaignId.value).value;
      && (r.status == 200 <==> Visible(s, c, Viewer(q.userId)))
      && (r.status == 404 <==> c !in s.campaigns)
      && (r.status == 200 ==> r.body == CampaignInfo(c, s.campaigns[c]))
      && (r.status == 403 <==> c in s.campaigns && !Visible(s, c, Viewer(q.userId))
                               && (ParamTruthy(q.userId) ==> Viewer(q.userId).Some?))
    ensures !ParamTruthy(q.campaignId) ==>
      && (r.status == 400 <==> ParamTruthy(q.userId) && Viewer(q.userId).None?)
      && (r.status != 400 ==> (r.status == 200 && r.body.CampaignList?
            && forall c :: c in r.body.ids <==> Visible(s, c, Viewer(q.userId))))
  {
    if ParamTruthy(q.campaignId) then
      match Decimal.ParseInt(q.campaignId.value)
      case None => Reply(500, ServerError, s)
      case Some(c) =>
        if c !in s.campaigns then Reply(404, NoContent, s)
        else if s.campaigns[c].private && !ParamTruthy(q.userId) then Reply(403, NoContent, s)
        else if s.campaigns[c].private && Viewer(q.userId).None? then Reply(500, ServerError, s)
        else if s.campaigns[c].private && !IsMember(s, Viewer(q.userId).value, c) then Reply(403, NoContent, s)
        else Reply(200, CampaignInfo(c, s.campaigns[c]), s)
    else if ParamTruthy(q.userId) then
      match Decimal.ParseInt(q.userId.value)
      case None => Reply(400, ErrorText("Invalid user_id"), s)
      case Some(u) => Reply(200, CampaignList(PublicCampaigns(s) + MemberCampaigns(s, u)), s)
    else Reply(200, CampaignList(PublicCampaigns(s)), s)
  }

  /** `Param` form of an optional id, as a client would send it. */
  function AsParam(x: Option<int>): Param {
    match x
    case None => None
    case Some(n) => Some(Decimal.IntStr(n))
  }

  /**
   * The two revisions agree on a single campaign except for a private one
   * the requester may not see: the ninja handler answers 404, disguising
   * it, and the views handler 403.
   */
  lemma RevisionsOnSingleGet(s: State, c: int, user: Option<int>)
    requires Wf(s)
    requires c != 0
    ensures var api := CampaignApi.GetCampaignAsWritten(s, CampaignApi.GetQuery(Some(c), user));
      var view := GetCampaign(s, GetParams(AsParam(Some(c)), AsParam(user)));
      && (CampaignApi.CanSee(s, c, user) ==> api.status == 200 && view.status == 200 && api.body == view.body)
      && (c !in s.campaigns ==> api.status == 404 && view.status == 404)
      && (c in s.campaigns && !CampaignApi.CanSee(s, c, user) ==> api.status == 404 && view.status == 403)
  {
    Decimal.ParseIntStr(c);
    assert Decimal.IntStr(c) != "" by {
      Decimal.NatDigitsValue(if c < 0 then -c else c);
    }
    if user.Some? {
      Decimal.ParseIntStr(user.value);
      assert Viewer(AsParam(user)) == user;
    }
  }

  /** `add_to_campaign_view` body fields. */
  function AddIds(body: Payload): (Json, Json, Json) {
    (Field(body, "campaign_id"), Field(body, "owner_id"), Field(body, "user_id"))
  }

  /**
   * `add_to_campaign_view`: any falsy id is a 400; then campaign (404),
   * caller's owner membership (403), target player (404), each id turned
   * into an integer by the lookup that reads it; then the same upsert as
   * the ninja handler, resetting an existing membership to status 0.
   */
  function Add(s: State, body: Payload): (r: Reply)
    ensures r.status in {200, 201, 400, 403, 404, 500}
    ensures r.status == 400 <==> !Truthy(AddIds(body).0) || !Truthy(AddIds(body).1) || !Truthy(AddIds(body).2)
    ensures r.status !in {200, 201} ==> r.after == s
    ensures r.status in {200, 201} ==>
      LookupInt(AddIds(body).0).Some? && LookupInt(AddIds(body).1).Some? && LookupInt(AddIds(body).2).Some?
    ensures r.status in {200, 201} ==>
      var c := LookupInt(AddIds(body).0).value;
      var o := LookupInt(AddIds(body).1).value;
      var u := LookupInt(AddIds(body).2).value;
      && c in s.campaigns && IsOwner(s, o, c) && u in s.players
      && CampaignApi.MembershipSet(s, r.after, u, c, PlayerStatus)
      && (r.status == 201 <==> !IsMember(s, u, c))
      && r.body == Message(CampaignApi.AddedMessage(u, c))
    ensures Truthy(AddIds(body).0) && Truthy(AddIds(body).1) && Truthy(AddIds(body).2)
            && LookupInt(AddIds(body).0).Some? ==>
      var c := LookupInt(AddIds(body).0).value;
      && (c !in s.campaigns ==> r.status == 404 && r.body == ErrorText("Campaign not found"))
      && (c in s.campaigns && LookupInt(AddIds(body).1).Some? && !IsOwner(s, LookupInt(AddIds(body).1).value, c) ==>
            r.status == 403 && r.body == ErrorText("Only the owner can add members"))
    ensures Truthy(AddIds(body).0) && Truthy(AddIds(body).1) && Truthy(AddIds(body).2)
            && LookupInt(AddIds(body).0).Some? && LookupInt(AddIds(body).1).Some? && LookupInt(AddIds(body).2).Some? ==>
      var c := LookupInt(AddIds(body).0).value;
      var o := LookupInt(AddIds(body).1).value;
      var u := LookupInt(AddIds(body).2).value;
      (c in s.campaigns && IsOwner(s, o, c) ==>
         && (u !in s.players ==> r.status == 404 && r.body == ErrorText("User not found"))
         && (u in s.players ==> r.status in {200, 201}))
  {
    var (cid, oid, uid) := AddIds(body);
    if !Truthy(cid) || !Truthy(oid) || !Truthy(uid) then
      Reply(400, ErrorText("Missing required parameters"), s)
    else
      match LookupInt(cid)
      case None => Reply(500, ServerError, s)
      case Some(c) =>
        if c !in s.campaigns then Reply(404, ErrorText("Campaign not found"), s)
        else
          match LookupInt(oid)
          case None => Reply(500, ServerError, s)
          case Some(o) =>
            if !IsOwner(s, o, c) then Reply(403, ErrorText("Only the owner can add members"), s)
            else
              match LookupInt(uid)
              case None => Reply(500, ServerError, s)
              case Some(u) =>
                if u !in s.players then Reply(404, ErrorText("User not found"), s)
                else
                  var created := !IsMember(s, u, c);
                  var s' := s.(members := s.members[(u, c) := PlayerStatus]);
                  Reply(if created then 201 else 200, Message(CampaignApi.AddedMessage(u, c)), s')
  }

  /** A JSON body carrying three integer ids. */
  function IdsBody(c: int, o: int, u: int): Payload {
    map["campaign_id" := JNum(c), "owner_id" := JNum(o), "user_id" := JNum(u)]
  }

  /** On non-zero integer ids both revisions of add give the same status and the same store. */
  lemma AddRevisionsAgree(s: State, c: int, o: int, u: int)
    requires c != 0 && o != 0 && u != 0
    ensures Add(s, IdsBody(c, o, u)).status == CampaignApi.Add(s, CampaignApi.AddRequest(c, o, u)).status
    ensures Add(s, IdsBody(c, o, u)).after == CampaignApi.Add(s, CampaignApi.AddRequest(c, o, u)).after
  {
    assert AddIds(IdsBody(c, o, u)) == (JNum(c), JNum(o), JNum(u));
  }

  /** Ids written as decimal strings, as a client may send them, reach the same upsert. */
  lemma AddStringIds(s: State, c: int, o: int, u: int)
    requires c in s.campaigns && IsOwner(s, o, c) && u in s.players
    ensures var body := map["campaign_id" := JStr(Decimal.IntStr(c)), "owner_id" := JStr(Decimal.IntStr(o)),
                            "user_id" := JStr(Decimal.IntStr(u))];
      && Add(s, body).status in {200, 201}
      && Add(s, body).after.members == s.members[(u, c) := PlayerStatus]
  {
    var body := map["campaign_id" := JStr(Decimal.IntStr(c)), "owner_id" := JStr(Decimal.IntStr(o)),
                    "user_id" := JStr(Decimal.IntStr(u))];
    assert AddIds(body) == (JStr(Decimal.IntStr(c)), JStr(Decimal.IntStr(o)), JStr(Decimal.IntStr(u)));
    Decimal.ParseIntStr(c);
    Decimal.ParseIntStr(o);
    Decimal.ParseIntStr(u);
  }

  /**
   * `edit_permissions_view`: 400 when an id is falsy or `status` is absent
   * (a status of 0 is present), 400 when the status is not in [0, 1, 2]
   * under Python's `==` (so `true` counts as 1), then campaign (404),
   * caller's ownership (403) and the membership (404); only an existing
   * membership changes.
   */
  function EditPermissions(s: State, body: Payload): (r: Reply)
    ensures r.status in {200, 400, 403, 404, 500}
    ensures r.after.members.Keys == s.members.Keys
    ensures r.status == 400 <==>
      !Truthy(AddIds(body).0) || !Truthy(AddIds(body).1) || !Truthy(AddIds(body).2)
      || StatusChoice(Field(body, "status")).None?
    ensures r.status != 200 ==> r.after == s
    ensures r.status == 200 ==>
      LookupInt(AddIds(body).0).Some? && LookupInt(AddIds(body).1).Some? && LookupInt(AddIds(body).2).Some?
    ensures r.status == 200 ==>
      var c := LookupInt(AddIds(body).0).value;
      var o := LookupInt(AddIds(body).1).value;
      var u := LookupInt(AddIds(body).2).value;
      && c in s.campaigns && IsOwner(s, o, c) && IsMember(s, u, c)
      && CampaignApi.MembershipSet(s, r.after, u, c, StatusChoice(Field(body, "status")).value)
    ensures Truthy(AddIds(body).0) && Truthy(AddIds(body).1) && Truthy(AddIds(body).2)
            && StatusChoice(Field(body, "status")).Some? && LookupInt(AddIds(body).0).Some? ==>
      var c := LookupInt(AddIds(body).0).value;
      var o := LookupInt(AddIds(body).1);
      var u := LookupInt(AddIds(body).2);
      && (c !in s.campaigns ==> r.status == 404 && r.body == ErrorText("Campaign not found"))
      && (c in s.campaigns && o.Some? && !IsOwner(s, o.value, c) ==>
            r.status == 403 && r.body == ErrorText("Only the owner can edit permissions"))
      && (c in s.campaigns && o.Some? && IsOwner(s, o.value, c) && u.Some? && !IsMember(s, u.value, c) ==>
            r.status == 404 && r.body == ErrorText("Membership not found"))
    ensures Truthy(AddIds(body).0) && Truthy(AddIds(body).1) && Truthy(AddIds(body).2)
            && StatusChoice(Field(body, "status")).Some?
            && LookupInt(AddIds(body).0).Some? && LookupInt(AddIds(body).1).Some? && LookupInt(AddIds(body).2).Some? ==>
      var c := LookupInt(AddIds(body).0).value;
      var o := LookupInt(AddIds(body).1).value;
      var u := LookupInt(AddIds(body).2).value;
      (c in s.campaigns && IsOwner(s, o, c) && IsMember(s, u, c) ==>
         && r.status == 200
         && CampaignApi.MembershipSet(s, r.after, u, c, StatusChoice(Field(body, "status")).value)
         && r.body == Message(CampaignApi.UpdatedMessage(Repr(AddIds(body).2), Repr(Field(body, "status")), c)))
  {
    var (cid, oid, uid) := AddIds(body);
    var st := Field(body, "status");
    if !(Truthy(cid) && Truthy(oid) && Truthy(uid)) || st.JNull? then
      Reply(400, ErrorText("Missing required parameters"), s)
    else
      match StatusChoice(st)
      case None => Reply(400, ErrorText("Invalid status value"), s)
      case Some(status) =>
        match LookupInt(cid)
        case None => Reply(500, ServerError, s)
        case Some(c) =>
          if c !in s.campaigns then Reply(404, ErrorText("Campaign not found"), s)
          else
            match LookupInt(oid)
            case None => Reply(500, ServerError, s)
            case Some(o) =>
              if !IsOwner(s, o, c) then Reply(403, ErrorText("Only the owner can edit permissions"), s)
              else
                match LookupInt(uid)
                case None => Reply(500, ServerError, s)
                case Some(u) =>
                  if !IsMember(s, u, c) then Reply(404, ErrorText("Membership not found"), s)
                  else
                    var s' := s.(members := s.members[(u, c) := status]);
                    Reply(200, Message(CampaignApi.UpdatedMessage(Repr(uid), Repr(st), c)), s')
  }

  /** A status of 0 is a present value: an owner can demote a member to player with it. */
  lemma EditStatusZeroIsPresent(s: State, c: int, o: int, u: int)
    requires c != 0 && o != 0 && u != 0
    requires c in s.campaigns && IsOwner(s, o, c) && IsMember(s, u, c)
    ensures EditPermissions(s, IdsBody(c, o, u)["status" := JNum(0)]).status == 200
    ensures EditPermissions(s, IdsBody(c, o, u)["status" := JNum(0)]).after.members[(u, c)] == PlayerStatus
  {
    var body := IdsBody(c, o, u)["status" := JNum(0)];
    assert AddIds(body) == (JNum(c), JNum(o), JNum(u));
    assert Field(body, "status") == JNum(0);
  }

  /**
   * On non-zero integer ids and an integer status both revisions of
   * edit-permissions give the same status and the same store.
   */
  lemma EditRevisionsAgree(s: State, c: int, o: int, u: int, status: int)
    requires c != 0 && o != 0 && u != 0
    ensures var view := EditPermissions(s, IdsBody(c, o, u)["status" := JNum(status)]);
      var api := CampaignApi.EditPermissions(s, CampaignApi.EditRequest(c, o, u, status));
      view.status == api.status && view.after == api.after
  {
    var body := IdsBody(c, o, u)["status" := JNum(status)];
    assert AddIds(body) == (JNum(c), JNum(o), JNum(u));
    assert Field(body, "status") == JNum(status);
  }

  /** Creating a campaign keeps the store well formed. */
  lemma CreatePreservesWf(s: State, body: Payload)
    requires Wf(s)
    ensures Wf(Create(s, body).after)
  {
    var r := Create(s, body);
    if r.status == 201 {
      var found := PlayersWithTelegram(s, TruthyInt(Field(body, "telegram_id")).value);
      var title := TitleOf(Field(body, "title")).value;
      var description := DescriptionOf(Field(body, "description"));
      var p, c :| p in found && (forall q :: q in found ==> p <= q)
                  && CampaignApi.CampaignAdded(s, r.after, p, c, title, description);
      CampaignApi.CampaignAddedPreservesWf(s, r.after, p, c, title, description);
    }
  }

  /** Adding a member keeps the store well formed. */
  lemma AddPreservesWf(s: State, body: Payload)
    requires Wf(s)
    ensures Wf(Add(s, body).after)
  {
  }

  /** Editing permissions keeps the store well formed. */
  lemma EditPreservesWf(s: State, body: Payload)
    requires Wf(s)
    ensures Wf(EditPermissions(s, body).after)
  {
  }
}

=== FILE: character_api.dfy ===
/**
 * The character handlers of dnd/api/character.py (the django-ninja
 * revision). Their parameters are typed, so a request reaches them with
 * integers already parsed; `get_object_or_404` turns a missing row into the
 * registered not-found reply.
 */
module CharacterApi {
  import opened Optional
  import opened JsonTree
  import opened CharacterModel
  import opened Store

  /** The character's owner is a stored player: `char_obj.owner.telegram_id` can be read. */
  predicate OwnerResolves(s: State, ch: Character) {
    ch.owner.Some? && ch.owner.value in s.players
  }

  /**
   * `get_character_api`: 404 for an unknown id; otherwise the stored
   * document with the character's owner, owner's telegram id and campaign.
   * A character whose owner was cleared fails on `owner.telegram_id` (500).
   */
  function GetCharacter(s: State, charId: int): (r: Reply)
    ensures r.after == s
    ensures r.status in {200, 404, 500}
    ensures r.status == 404 <==> charId !in s.characters
    ensures r.status == 404 ==> r.body == NotFoundDefault
    ensures r.status == 200 <==> charId in s.characters && OwnerResolves(s, s.characters[charId])
    ensures r.status == 200 ==>
      var ch := s.characters[charId];
      r.body.CharacterOut? && r.body.id == charId && r.body.data == LoadData(ch)
      && Some(r.body.ownerId) == ch.owner && r.body.campaignId == ch.campaign
      && r.body.ownerTelegramId == s.players[r.body.ownerId].telegramId
  {
    if charId !in s.characters then Reply(404, NotFoundDefault, s)
    else
      var ch := s.characters[charId];
      if !OwnerResolves(s, ch) then Reply(500, ServerError, s)
      else
        var o := ch.owner.value;
        Reply(200, CharacterOut(charId, o, s.players[o].telegramId, ch.campaign, LoadData(ch)), s)
  }

  /** The `UploadCharacter` body: owner id, campaign id and the character document. */
  datatype UploadRequest = UploadRequest(ownerId: int, campaignId: int, data: Json)

  /**
   * `upload_character_api`: 404 for an unknown owner, then 404 for an
   * unknown campaign; otherwise one new character holding the document,
   * echoed back with 201.
   */
  function Upload(s: State, req: UploadRequest): (r: Reply)
    ensures r.status in {201, 404}
    ensures r.status == 404 <==> req.ownerId !in s.players || req.campaignId !in s.campaigns
    ensures r.status == 404 ==> r.after == s && r.body == NotFoundDefault
    ensures r.status == 201 ==>
      && r.body.CharacterOut?
      && r.body.data == req.data
      && r.body.ownerId == req.ownerId
      && r.body.ownerTelegramId == s.players[req.ownerId].telegramId
      && r.body.campaignId == Some(req.campaignId)
      && CharacterAdded(s, r.after, r.body.id, Character(Some(req.ownerId), Some(req.campaignId), req.data))
  {
    if req.ownerId !in s.players then Reply(404, NotFoundDefault, s)
    else if req.campaignId !in s.campaigns then Reply(404, NotFoundDefault, s)
    else
      var id := FreshId(s.characters.Keys);
      var blank := Character(Some(req.ownerId), Some(req.campaignId), JNull);
      var ch := SaveData(blank, req.data);
      var s' := s.(characters := s.characters[id := ch]);
      Reply(201, CharacterOut(id, req.ownerId, s.players[req.ownerId].telegramId, Some(req.campaignId), LoadData(ch)), s')
  }

  /** An uploaded character reads back through `get` with the same document, owner and campaign. */
  lemma UploadThenGet(s: State, req: UploadRequest)
    requires Upload(s, req).status == 201
    ensures var up := Upload(s, req);
      GetCharacter(up.after, up.body.id) == Reply(200, up.body, up.after)
  {
  }

  /** Of an unknown owner and an unknown campaign, neither creates anything; the body is the same. */
  lemma UploadUnknownCreatesNothing(s: State, req: UploadRequest)
    requires req.ownerId !in s.players || req.campaignId !in s.campaigns
    ensures Upload(s, req).after.characters == s.characters
  {
  }

  /** A successful upload adds exactly one character. */
  lemma UploadAddsOne(s: State, req: UploadRequest)
    requires Upload(s, req).status == 201
    ensures |Upload(s, req).after.characters| == |s.characters| + 1
  {
  }

  /** Uploading keeps the store well formed. */
  lemma UploadPreservesWf(s: State, req: UploadRequest)
    requires Wf(s)
    ensures Wf(Upload(s, req).after)
  {
  }

  /** In a well-formed store every stored character whose owner is set can be read. */
  lemma GetOnWfStore(s: State, charId: int)
    requires Wf(s)
    requires charId in s.characters && s.characters[charId].owner.Some?
    ensures GetCharacter(s, charId).status == 200
  {
  }
}

=== FILE: character_model.dfy ===
/**
 * `Character` of dnd/models/character.py: a row whose JSON document lives
 * in a file blob, read whole by `_load_data`, written whole by `_save_data`,
 * and accessed by path through `get(*args)` and `set(*args, **kwargs)`.
 */
module CharacterModel {
  import opened Optional
  import opened JsonTree

  /**
   * A character row. Owner and campaign are nullable foreign keys (the owner
   * is set to NULL when its player is deleted); `blob` is the stored document.
   */
  datatype Character = Character(owner: Option<int>, campaign: Option<int>, blob: Json)

  /** Keyword arguments of `set`: field name to new value (a dict, so names are distinct). */
  type Fields = map<string, Json>

  /** `_load_data`: read the document back; `json.dumps`/`json.load` are taken as the identity. */
  function LoadData(c: Character): (doc: Json)
    ensures SaveData(c, doc) == c
  {
    c.blob
  }

  /**
   * `_save_data`: write the whole document to the file and point the row's
   * file field at it, in memory; owner and campaign are not touched.
   * `save=False` leaves writing the row itself to a later `save()`.
   */
  function SaveData(c: Character, doc: Json): (c': Character)
    ensures c'.owner == c.owner && c'.campaign == c.campaign
    ensures c'.blob == doc
  {
    c.(blob := doc)
  }

  /** The loop of `Character.get(*path)`: the node reached, or `None` at the first failed subscript. */
  function GetAt(c: Character, path: seq<Segment>): (r: Option<Json>)
    ensures path == [] ==> r == Some(LoadData(c))
    ensures r.None? <==>
      exists i :: 0 <= i < |path| && Get(LoadData(c), path[..i]).Some? && Child(Get(LoadData(c), path[..i]).value, path[i]).None?
  {
    GetNoneIffStepFails(LoadData(c), path);
    Get(LoadData(c), path)
  }

  /**
   * What `Character.get(*path)` hands its caller. Python's `None` is both the
   * answer for a failed subscript and a stored JSON `null`, so the caller
   * cannot tell the two apart.
   */
  function GetValue(c: Character, path: seq<Segment>): (v: Json)
    ensures v == JNull <==> GetAt(c, path).None? || GetAt(c, path) == Some(JNull)
    ensures v != JNull ==> GetAt(c, path) == Some(v)
  {
    match GetAt(c, path)
    case None => JNull
    case Some(node) => node
  }

  /** What a call of `set` does: it returns a flag and the row as saved, or an exception escapes. */
  datatype SetResult = Returned(ok: bool, after: Character) | Raised

  /**
   * `Character.set(*path, **fields)` as its docstring and its test describe
   * it: walk `path` like `get`; on a failed segment return `False` and save
   * nothing; otherwise assign every `field := value` at the node reached and
   * save the whole document. Assigning into anything but a dict raises a
   * TypeError, which the source does not catch.
   *
   * The source's loop reads `for n, v in kwargs`, which iterates the KEYS of
   * `kwargs`; `SetAsWritten` below models that line as it stands.
   */
  function Set(c: Character, path: seq<Segment>, fields: Fields): (r: SetResult)
    ensures r.Returned? ==> r.after.owner == c.owner && r.after.campaign == c.campaign
    ensures r.Returned? && !r.ok ==> r.after == c
    ensures r.Returned? ==>
      (r.ok <==> !exists i :: 0 <= i < |path| && GetAt(c, path[..i]).Some? && Child(GetAt(c, path[..i]).value, path[i]).None?)
    ensures r.Raised? <==> GetAt(c, path).Some? && !GetAt(c, path).value.JObj? && fields != map[]
  {
    GetNoneIffStepFails(LoadData(c), path);
    var data := LoadData(c);
    match Get(data, path)
    case None => Returned(false, c)
    case Some(JObj(m)) => Returned(true, SaveData(c, Replace(data, path, JObj(m + fields))))
    case Some(_) => if fields == map[] then Returned(true, SaveData(c, data)) else Raised
  }

  /** Serialising a document and reading it back gives the same document. */
  lemma SaveLoadRoundTrip(c: Character, doc: Json)
    ensures LoadData(SaveData(c, doc)) == doc
    ensures SaveData(c, LoadData(c)) == c
  {
  }

  /** A stored `null` and a missing key come back from `get` as the same `None`. */
  lemma StoredNullLooksMissing()
    ensures var c := Character(None, None, JObj(map["hp" := JNull]));
      && GetAt(c, [Key("hp")]) == Some(JNull) && GetAt(c, [Key("xp")]).None?
      && GetValue(c, [Key("hp")]) == GetValue(c, [Key("xp")]) == JNull
  {
    var c := Character(None, None, JObj(map["hp" := JNull]));
    assert [Key("hp")][1..] == [];
    assert GetAt(c, [Key("hp")]) == Some(JNull);
  }

  /** The empty path reads the whole stored document. */
  lemma GetEmptyPath(c: Character)
    ensures GetAt(c, []) == Some(LoadData(c))
  {
  }

  /** `get` after a successful `set`: each assigned field reads back as its new value. */
  lemma SetRoundTrip(c: Character, path: seq<Segment>, fields: Fields, f: string)
    requires Set(c, path, fields).Returned? && Set(c, path, fields).ok
    requires f in fields
    ensures GetAt(Set(c, path, fields).after, path + [Key(f)]) == Some(fields[f])
  {
    var data := LoadData(c);
    var m := Get(data, path).value.fields;
    var node := JObj(m + fields);
    ObjectIsAddressable(data, path);
    GetReplace(data, path, node);
    GetSnoc(Replace(data, path, node), path, Key(f));
  }

  /**
   * Below the node `set` reached, everything not under an assigned field is
   * as it was: any continuation whose first segment is not an assigned key
   * reads the same before and after.
   */
  lemma SetKeepsOtherFields(c: Character, path: seq<Segment>, fields: Fields, rest: seq<Segment>)
    requires Set(c, path, fields).Returned?
    requires |rest| > 0 && !(rest[0].Key? && rest[0].k in fields)
    ensures GetAt(Set(c, path, fields).after, path + rest) == GetAt(c, path + rest)
  {
    var data := LoadData(c);
    var after := Set(c, path, fields).after;
    GetAppend(data, path, rest);
    GetAppend(LoadData(after), path, rest);
    match Get(data, path)
    case None =>
    case Some(node) =>
      if node.JObj? {
        var node' := JObj(node.fields + fields);
        ObjectIsAddressable(data, path);
        GetReplace(data, path, node');
        assert Child(node', rest[0]) == Child(node, rest[0]);
      }
  }

  /** Outside the path it walked, `set` changes nothing. */
  lemma SetKeepsElsewhere(c: Character, path: seq<Segment>, fields: Fields, q: seq<Segment>)
    requires Set(c, path, fields).Returned?
    requires Apart(LoadData(c), path, q)
    ensures GetAt(Set(c, path, fields).after, q) == GetAt(c, q)
  {
    var data := LoadData(c);
    match Get(data, path)
    case None =>
    case Some(node) =>
      if node.JObj? {
        ObjectIsAddressable(data, path);
        ReplaceApart(data, path, q, JObj(node.fields + fields));
      }
  }

  /** A `set` with no fields on a resolving path saves the document unchanged. */
  lemma SetNothingKeepsDocument(c: Character, path: seq<Segment>)
    requires GetAt(c, path).Some?
    ensures Set(c, path, map[]) == Returned(true, c)
  {
    var data := LoadData(c);
    var node := Get(data, path).value;
    if node.JObj? {
      assert node.fields + map[] == node.fields;
      ReplaceSame(data, path);
    }
  }

  /**
   * The loop `for n, v in kwargs: cur[n] = v` as written. Iterating a dict
   * yields its keys, so each key string is unpacked into `n, v`: a key whose
   * length is not two raises ValueError; a two-letter key `ab` assigns the
   * string `b` under the key `a`. The values passed are never used.
   */
  function UnpackAssign(m: map<string, Json>, names: seq<string>): (r: Option<map<string, Json>>)
    ensures r.Some? <==> forall i :: 0 <= i < |names| ==> |names[i]| == 2
    ensures r.Some? ==> m.Keys <= r.value.Keys
    ensures r.Some? ==> forall i :: 0 <= i < |names| ==> [names[i][0]] in r.value
    ensures r.Some? ==> forall k :: k in r.value && k !in m ==> |k| == 1
    ensures r.Some? ==> forall k :: k in m && |k| != 1 ==> k in r.value && r.value[k] == m[k]
    decreases |names|
  {
    if names == [] then Some(m)
    else if |names[0]| != 2 then None
    else UnpackAssign(m[[names[0][0]] := JStr([names[0][1]])], names[1..])
  }

  /**
   * `Character.set` as written, given the names of its keyword arguments in
   * call order. An exception raised inside the loop escapes before
   * `_save_data`, so nothing is stored.
   */
  function SetAsWritten(c: Character, path: seq<Segment>, names: seq<string>): (r: SetResult)
    ensures r.Returned? && !r.ok ==> r.after == c
    ensures r.Returned? ==> (r.ok <==> GetAt(c, path).Some?)
  {
    var data := LoadData(c);
    match Get(data, path)
    case None => Returned(false, c)
    case Some(JObj(m)) =>
      (match UnpackAssign(m, names)
       case None => Raised
       case Some(m') => Returned(true, SaveData(c, Replace(data, path, JObj(m')))))
    case Some(_) => if names == [] then Returned(true, c) else Raised
  }

  /** A keyword whose name is not exactly two characters long makes the loop raise. */
  lemma {:induction false} UnpackAssignRejects(m: map<string, Json>, names: seq<string>, i: int)
    requires 0 <= i < |names| && |names[i]| != 2
    ensures UnpackAssign(m, names) == None
    decreases |names|
  {
    if |names[0]| == 2 {
      UnpackAssignRejects(m[[names[0][0]] := JStr([names[0][1]])], names[1..], i - 1);
    }
  }

  /** As written, `set` with any ordinary keyword name (not two letters long) raises on a dict. */
  lemma SetAsWrittenRaises(c: Character, path: seq<Segment>, names: seq<string>, i: int)
    requires GetAt(c, path).Some?
    requires 0 <= i < |names| && |names[i]| != 2
    ensures SetAsWritten(c, path, names) == Raised
  {
    var node := GetAt(c, path).value;
    if node.JObj? {
      UnpackAssignRejects(node.fields, names, i);
    }
  }

  /** The document of dnd/tests/test_character.py: `{"info": {"charClass": "Wizard"}}`. */
  function WizardSheet(): Character {
    Character(Some(1), Some(1), JObj(map["info" := JObj(map["charClass" := JStr("Wizard")])]))
  }

  /** `get("info", "charClass")` on the test document reads `"Wizard"`; a missing key reads `None`. */
  lemma WizardLookups()
    ensures GetAt(WizardSheet(), [Key("info"), Key("charClass")]) == Some(JStr("Wizard"))
    ensures GetAt(WizardSheet(), [Key("info"), Key("nonexistent")]) == None
    ensures GetAt(WizardSheet(), [Key("info"), Idx(0)]) == None
  {
    var info := JObj(map["charClass" := JStr("Wizard")]);
    assert Child(LoadData(WizardSheet()), Key("info")) == Some(info);
    assert [Key("info"), Key("charClass")][1..] == [Key("charClass")];
    assert [Key("info"), Key("nonexistent")][1..] == [Key("nonexistent")];
    assert [Key("info"), Idx(0)][1..] == [Idx(0)];
  }

  /**
   * The test's `set("info", value="Sorcerer")`: the intended `set` succeeds
   * and `get("info", "value")` reads `"Sorcerer"`, while the loop as written
   * raises ValueError on unpacking the five-letter key `value`.
   */
  lemma SetSorcererScenario()
    ensures Set(WizardSheet(), [Key("info")], map["value" := JStr("Sorcerer")]).Returned?
    ensures Set(WizardSheet(), [Key("info")], map["value" := JStr("Sorcerer")]).ok
    ensures GetAt(Set(WizardSheet(), [Key("info")], map["value" := JStr("Sorcerer")]).after,
                  [Key("info"), Key("value")]) == Some(JStr("Sorcerer"))
    ensures SetAsWritten(WizardSheet(), [Key("info")], ["value"]) == Raised
  {
    var c := WizardSheet();
    var fields := map["value" := JStr("Sorcerer")];
    assert [Key("info")][1..] == [];
    assert GetAt(c, [Key("info")]) == Some(JObj(map["charClass" := JStr("Wizard")]));
    SetRoundTrip(c, [Key("info")], fields, "value");
    assert [Key("info")] + [Key("value")] == [Key("info"), Key("value")];
    SetAsWrittenRaises(c, [Key("info")], ["value"], 0);
  }

  /** The test's `set("not_exist", ...)`: returns `False`, stores nothing, and `get` reads `None`. */
  lemma SetMissingPathScenario()
    ensures Set(WizardSheet(), [Key("not_exist")], map["value" := JStr("Sorcerer")]) == Returned(false, WizardSheet())
    ensures GetAt(WizardSheet(), [Key("not_exist")]) == None
  {
  }

  /**
   * As written, a two-letter keyword such as `hp=10` stores the string `"p"`
   * under the key `"h"` and drops the value `10`.
   */
  lemma SetAsWrittenTwoLetterKey()
    ensures SetAsWritten(WizardSheet(), [Key("info")], ["hp"]).Returned?
    ensures GetAt(SetAsWritten(WizardSheet(), [Key("info")], ["hp"]).after, [Key("info"), Key("h")]) == Some(JStr("p"))
    ensures GetAt(SetAsWritten(WizardSheet(), [Key("info")], ["hp"]).after, [Key("info"), Key("hp")]) == None
    ensures GetAt(Set(WizardSheet(), [Key("info")], map["hp" := JNum(10)]).after, [Key("info"), Key("hp")]) == Some(JNum(10))
  {
    var c := WizardSheet();
    var info := JObj(map["charClass" := JStr("Wizard")]);
    assert [Key("info")][1..] == [];
    assert GetAt(c, [Key("info")]) == Some(info);
    var info' := JObj(info.fields["h" := JStr("p")]);
    assert UnpackAssign(info.fields, ["hp"]) == Some(info'.fields) by {
      assert ["hp"][0][0] == 'h' && ["hp"][0][1] == 'p';
      assert ["hp"][1..] == [];
    }
    var after := SetAsWritten(c, [Key("info")], ["hp"]).after;
    assert LoadData(after) == JObj(map["info" := info']);
    assert Get(LoadData(after), [Key("info"), Key("h")]) == Some(JStr("p")) by {
      assert [Key("info"), Key("h")][1..] == [Key("h")];
      assert [Key("h")][1..] == [];
    }
    assert Get(LoadData(after), [Key("info"), Key("hp")]) == None by {
      assert [Key("info"), Key("hp")][1..] == [Key("hp")];
    }
    SetRoundTrip(c, [Key("info")], map["hp" := JNum(10)], "hp");
    assert [Key("info")] + [Key("hp")] == [Key("info"), Key("hp")];
  }
}

=== FILE: character_views.dfy ===
/**
 * The character handlers of dnd/views/character.py (the Django REST
 * framework revision): `char_id` arrives as query text and the upload body
 * as raw JSON, both checked by hand.
 */
module CharacterViews {
  import opened Optional
  import opened JsonTree
  import opened CharacterModel
  import opened Store
  import opened PyValue
  import Decimal
  import CharacterApi

  /** `int(request.query_params.get("char_id"))`; `None` for the TypeError of a missing one and the ValueError of bad text. */
  function CharIdOf(p: Param): Option<int> {
    match p
    case None => None
    case Some(text) => Decimal.ParseInt(text)
  }

  /**
   * `get_character_view`: 400 for a missing, non-integer or zero `char_id`,
   * 404 for an unknown one; otherwise the stored document with the owner's
   * telegram id and the campaign.
   */
  function GetCharacter(s: State, charId: Param): (r: Reply)
    ensures r.after == s
    ensures r.status in {200, 400, 404, 500}
    ensures r.status == 400 <==> CharIdOf(charId).None? || CharIdOf(charId) == Some(0)
    ensures r.status == 404 <==>
      CharIdOf(charId).Some? && CharIdOf(charId).value != 0 && CharIdOf(charId).value !in s.characters
    ensures CharIdOf(charId).Some? && CharIdOf(charId).value != 0 && CharIdOf(charId).value in s.characters ==>
      (r.status == 200 <==> CharacterApi.OwnerResolves(s, s.characters[CharIdOf(charId).value]))
    ensures r.status == 200 ==>
      var id := CharIdOf(charId).value;
      && id in s.characters
      && CharacterApi.OwnerResolves(s, s.characters[id])
      && r.body == CharacterView(id, s.players[s.characters[id].owner.value].telegramId,
                                 s.characters[id].campaign, LoadData(s.characters[id]))
  {
    match CharIdOf(charId)
    case None => Reply(400, NoContent, s)
    case Some(id) =>
      if id == 0 then Reply(400, NoContent, s)
      else if id !in s.characters then Reply(404, NoContent, s)
      else
        var ch := s.characters[id];
        if !CharacterApi.OwnerResolves(s, ch) then Reply(500, ServerError, s)
        else Reply(200, CharacterView(id, s.players[ch.owner.value].telegramId, ch.campaign, LoadData(ch)), s)
  }

  /**
   * The two revisions of `get` agree on every non-zero id written as a
   * query parameter: same status, and on success the same document, owner
   * telegram id and campaign.
   */
  lemma GetRevisionsAgree(s: State, id: int)
    requires id != 0
    ensures var api := CharacterApi.GetCharacter(s, id);
      var view := GetCharacter(s, Some(Decimal.IntStr(id)));
      && api.status == view.status
      && (api.status == 200 ==>
            view.body.data == api.body.data && view.body.campaignId == api.body.campaignId
            && view.body.ownerTelegramId == api.body.ownerTelegramId)
  {
    Decimal.ParseIntStr(id);
  }

  /**
   * `upload_character_view`: `owner_id` a truthy int (400) naming a player
   * (404), then `campaign_id` likewise (400, 404), then `data` a non-empty
   * object (400); only then one character is created.
   */
  function Upload(s: State, body: Payload): (r: Reply)
    ensures r.status in {201, 400, 404}
    ensures r.status == 400 <==>
      || TruthyInt(Field(body, "owner_id")).None?
      || (TruthyInt(Field(body, "owner_id")).value in s.players
          && (|| TruthyInt(Field(body, "campaign_id")).None?
              || (TruthyInt(Field(body, "campaign_id")).value in s.campaigns
                  && Document(Field(body, "data")).None?)))
    ensures r.status == 404 <==>
      TruthyInt(Field(body, "owner_id")).Some?
      && (|| TruthyInt(Field(body, "owner_id")).value !in s.players
          || (TruthyInt(Field(body, "campaign_id")).Some?
              && TruthyInt(Field(body, "campaign_id")).value !in s.campaigns))
    ensures r.status != 201 ==> r.after == s
    ensures r.status == 201 ==>
      var o := TruthyInt(Field(body, "owner_id")).value;
      var c := TruthyInt(Field(body, "campaign_id")).value;
      && r.body.CharacterCreated? && r.body.ownerId == o && r.body.campaignId == Some(c)
      && CharacterAdded(s, r.after, r.body.id, Character(Some(o), Some(c), Field(body, "data")))
  {
    match TruthyInt(Field(body, "owner_id"))
    case None => Reply(400, NoContent, s)
    case Some(o) =>
      if o !in s.players then Reply(404, NoContent, s)
      else
        match TruthyInt(Field(body, "campaign_id"))
        case None => Reply(400, NoContent, s)
        case Some(c) =>
          if c !in s.campaigns then Reply(404, NoContent, s)
          else
            match Document(Field(body, "data"))
            case None => Reply(400, NoContent, s)
            case Some(doc) =>
              var id := FreshId(s.characters.Keys);
              var ch := SaveData(Character(Some(o), Some(c), JNull), doc);
              Reply(201, CharacterCreated(id, o, Some(c)), s.(characters := s.characters[id := ch]))
  }

  /** An upload body carrying owner, campaign and document. */
  function UploadBody(o: int, c: int, doc: Json): Payload {
    map["owner_id" := JNum(o), "campaign_id" := JNum(c), "data" := doc]
  }

  /** A character uploaded through this revision reads back, through `get`, with its document and campaign. */
  lemma UploadThenGet(s: State, o: int, c: int, doc: Json)
    requires Upload(s, UploadBody(o, c, doc)).status == 201
    ensures var up := Upload(s, UploadBody(o, c, doc));
      var got := GetCharacter(up.after, Some(Decimal.IntStr(up.body.id)));
      got.status == 200 && got.body.data == doc && got.body.campaignId == Some(c)
  {
    var body := UploadBody(o, c, doc);
    assert Field(body, "owner_id") == JNum(o);
    assert Field(body, "campaign_id") == JNum(c);
    assert Field(body, "data") == doc;
    var up := Upload(s, body);
    Decimal.ParseIntStr(up.body.id);
  }

  /**
   * With a known owner and campaign and a non-empty document the two
   * revisions of upload store the same character; they differ in what they
   * echo back and in what they demand of the document.
   */
  lemma UploadRevisionsAgree(s: State, o: int, c: int, doc: Json)
    requires o != 0 && c != 0
    requires doc.JObj? && doc.fields != map[]
    ensures Upload(s, UploadBody(o, c, doc)).status ==
            CharacterApi.Upload(s, CharacterApi.UploadRequest(o, c, doc)).status
    ensures Upload(s, UploadBody(o, c, doc)).after ==
            CharacterApi.Upload(s, CharacterApi.UploadRequest(o, c, doc)).after
  {
    var body := UploadBody(o, c, doc);
    assert Field(body, "owner_id") == JNum(o);
    assert Field(body, "campaign_id") == JNum(c);
    assert Field(body, "data") == doc;
  }

  /** Uploading keeps the store well formed. */
  lemma UploadPreservesWf(s: State, body: Payload)
    requires Wf(s)
    ensures Wf(Upload(s, body).after)
  {
  }
}

=== FILE: decimal.dfy ===
/**
 * Decimal text of integers: Python's `int(s)` on a query string and the
 * `str(n)` rendering that f-strings use in response messages.
 */
module Decimal {
  import opened Optional

  predicate IsDigit(c: char) {
    '0' <= c <= '9'
  }

  predicate AllDigits(s: string) {
    forall i :: 0 <= i < |s| ==> IsDigit(s[i])
  }

  function DigitValue(c: char): nat
    requires IsDigit(c)
  {
    (c as int) - ('0' as int)
  }

  function DigitChar(d: nat): (c: char)
    requires d < 10
    ensures IsDigit(c) && DigitValue(c) == d
  {
    (('0' as int) + d) as char
  }

  /** The base-ten digits of `n`, most significant first, with no leading zero. */
  function NatDigits(n: nat): (r: string)
    ensures |r| > 0 && AllDigits(r)
    ensures |r| > 1 ==> r[0] != '0'
    ensures r[0] == '0' <==> n == 0
    decreases n
  {
    if n < 10 then [DigitChar(n)] else NatDigits(n / 10) + [DigitChar(n % 10)]
  }

  /** `str(n)` for a Python int: a minus sign for a negative number, then digits without a leading zero. */
  function IntStr(n: int): (r: string)
    ensures |r| > 0 && (r[0] == '-' <==> n < 0)
    ensures n >= 0 ==> AllDigits(r) && (r[0] == '0' ==> r == "0")
    ensures n < 0 ==> |r| > 1 && AllDigits(r[1..]) && r[1] != '0'
  {
    if n < 0 then "-" + NatDigits(-n) else NatDigits(n)
  }

  /** The number a non-empty run of digits denotes. */
  function DigitsValue(s: string): nat
    requires AllDigits(s)
    decreases |s|
  {
    if s == [] then 0 else DigitsValue(s[..|s| - 1]) * 10 + DigitValue(s[|s| - 1])
  }

  /**
   * Python's `int(s)` on a str: an optional sign followed by one or more
   * ASCII digits (leading zeros allowed). `None` stands for the ValueError.
   * Surrounding whitespace, `_` separators and non-ASCII decimal digits,
   * which `int` also accepts, are not modelled.
   */
  function ParseInt(s: string): (r: Option<int>)
    ensures r.Some? <==> (|s| > 0 && AllDigits(s)) || (|s| > 1 && (s[0] == '-' || s[0] == '+') && AllDigits(s[1..]))
    ensures r.Some? && AllDigits(s) ==> r.value == DigitsValue(s)
    ensures r.Some? && s[0] == '-' ==> r.value == 0 - (DigitsValue(s[1..]) as int)
    ensures r.Some? && s[0] == '+' ==> r.value == DigitsValue(s[1..])
    ensures r.Some? && r.value < 0 ==> s[0] == '-'
  {
    if |s| > 0 && (s[0] == '-' || s[0] == '+') then
      var digits := s[1..];
      if |digits| > 0 && AllDigits(digits) then
        var magnitude: int := DigitsValue(digits);
        Some(if s[0] == '-' then -magnitude else magnitude)
      else None
    else if |s| > 0 && AllDigits(s) then Some(DigitsValue(s))
    else None
  }

  lemma {:induction false} NatDigitsValue(n: nat)
    ensures DigitsValue(NatDigits(n)) == n
    decreases n
  {
    if n >= 10 {
      var front := NatDigits(n / 10);
      var d := DigitChar(n % 10);
      assert (front + [d])[..|front + [d]| - 1] == front;
      NatDigitsValue(n / 10);
    }
  }

  /** Parsing the rendering of any integer gives that integer back. */
  lemma ParseIntStr(n: int)
    ensures ParseInt(IntStr(n)) == Some(n)
  {
    if n < 0 {
      NatDigitsValue(-n);
      assert ("-" + NatDigits(-n))[1..] == NatDigits(-n);
    } else {
      NatDigitsValue(n);
    }
  }

  /** The empty string and a lone sign are not integers. */
  lemma ParseIntNeedsDigits(s: string)
    requires s == "" || s == "-" || s == "+"
    ensures ParseInt(s) == None
  {
  }
}

=== FILE: json_tree.dfy ===
/**
 * A JSON document as `json.load` hands it to the character accessor, and the
 * one-subscript-at-a-time walk `cur = cur[arg]` that `Character.get` and
 * `Character.set` perform on it (dnd/models/character.py).
 */
module JsonTree {
  import opened Optional

  /** Numbers are integers only: floating point is not modelled. */
  datatype Json =
    | JNull
    | JBool(b: bool)
    | JNum(n: int)
    | JStr(s: string)
    | JArr(items: seq<Json>)
    | JObj(fields: map<string, Json>)

  /** One positional argument of `get`/`set`: a dict key or a list/string index. */
  datatype Segment = Key(k: string) | Idx(i: int)

  /**
   * Python's resolution of an index against a sequence of length `len`:
   * a negative index counts from the end; anything outside
   * `-len .. len-1` is an IndexError (`None`).
   */
  function Position(i: int, len: nat): (r: Option<nat>)
    ensures r.Some? <==> -(len as int) <= i < len
    ensures r.Some? ==> r.value < len && (r.value - i) % len == 0
  {
    if 0 <= i < len then Some(i)
    else if -(len as int) <= i < 0 then Some(i + len)
    else None
  }

  /**
   * One subscript `node[seg]`. `None` stands for the KeyError, IndexError or
   * TypeError the source catches: a missing key, an index out of range, a
   * string key on a list, an int key on a dict (JSON keys are strings), or a
   * scalar that is not subscriptable. An index into a string selects a
   * one-character string.
   */
  function Child(node: Json, seg: Segment): (r: Option<Json>)
    ensures r.Some? <==>
      || (node.JObj? && seg.Key? && seg.k in node.fields)
      || (node.JArr? && seg.Idx? && -|node.items| <= seg.i < |node.items|)
      || (node.JStr? && seg.Idx? && -|node.s| <= seg.i < |node.s|)
    ensures r.Some? && node.JObj? ==> r.value == node.fields[seg.k]
    ensures r.Some? && node.JArr? ==> r.value == node.items[Position(seg.i, |node.items|).value]
    ensures r.Some? && node.JStr? ==> r.value == JStr([node.s[Position(seg.i, |node.s|).value]])
  {
    match (node, seg)
    case (JObj(m), Key(k)) =>
      if k in m then Some(m[k]) else None
    case (JArr(xs), Idx(i)) =>
      (match Position(i, |xs|)
       case Some(n) => Some(xs[n])
       case None => None)
    case (JStr(s), Idx(i)) =>
      (match Position(i, |s|)
       case Some(n) => Some(JStr([s[n]]))
       case None => None)
    case _ => None
  }

  /** The reference walk: resolve `path` segment by segment, stopping at the first failure. */
  function Get(doc: Json, path: seq<Segment>): Option<Json>
    decreases |path|
  {
    if path == [] then Some(doc)
    else
      match Child(doc, path[0])
      case None => None
      case Some(next) => Get(next, path[1..])
  }

  /** `Get` continued from an optional node. */
  function GetFrom(node: Option<Json>, path: seq<Segment>): Option<Json> {
    match node
    case None => None
    case Some(x) => Get(x, path)
  }

  /**
   * The loop of `Character.get` as written: `for arg in args: cur = cur[arg]`,
   * returning `None` from inside the loop on the first failed subscript.
   */
  method Lookup(doc: Json, path: seq<Segment>) returns (r: Option<Json>)
    ensures r == Get(doc, path)
    ensures path == [] ==> r == Some(doc)
  {
    var cur := doc;
    var k := 0;
    while k < |path|
      invariant 0 <= k <= |path|
      invariant Get(doc, path) == Get(cur, path[k..])
    {
      assert path[k..][1..] == path[k + 1..];
      var next := Child(cur, path[k]);
      if next.None? {
        return None;
      }
      cur := next.value;
      k := k + 1;
    }
    return Some(cur);
  }

  /** Walking `p + q` is walking `p` and then `q` from wherever `p` ended. */
  lemma {:induction false} GetAppend(doc: Json, p: seq<Segment>, q: seq<Segment>)
    ensures Get(doc, p + q) == GetFrom(Get(doc, p), q)
    decreases |p|
  {
    if p == [] {
      assert p + q == q;
    } else {
      assert (p + q)[0] == p[0];
      assert (p + q)[1..] == p[1..] + q;
      match Child(doc, p[0])
      case None =>
      case Some(next) => GetAppend(next, p[1..], q);
    }
  }

  /** Extending a resolved path by one segment takes one more subscript. */
  lemma GetSnoc(doc: Json, p: seq<Segment>, seg: Segment)
    ensures Get(doc, p + [seg]) ==
      match Get(doc, p)
      case None => None
      case Some(x) => Child(x, seg)
  {
    GetAppend(doc, p, [seg]);
    assert [seg][1..] == [];
    match Get(doc, p)
    case None =>
    case Some(x) =>
      match Child(x, seg)
      case None =>
      case Some(y) => assert Get(y, []) == Some(y);
  }

  /**
   * The walk fails exactly when some prefix of the path resolves and the
   * next segment does not: a missing key, an index out of range, or a
   * value that cannot be subscripted.
   */
  lemma {:induction false} GetNoneIffStepFails(doc: Json, path: seq<Segment>)
    ensures Get(doc, path).None? <==>
      exists i :: 0 <= i < |path| && Get(doc, path[..i]).Some? && Child(Get(doc, path[..i]).value, path[i]).None?
    decreases |path|
  {
    if path == [] {
    } else {
      assert path[..0] == [];
      match Child(doc, path[0])
      case None =>
        assert Get(doc, path[..0]) == Some(doc);
      case Some(next) =>
        GetNoneIffStepFails(next, path[1..]);
        forall i | 0 <= i < |path[1..]|
          ensures Get(doc, path[..i + 1]) == Get(next, path[1..][..i])
          ensures path[1..][i] == path[i + 1]
        {
          assert path[..i + 1][0] == path[0];
          assert path[..i + 1][1..] == path[1..][..i];
        }
        if Get(doc, path).None? {
          var j :| 0 <= j < |path[1..]| && Get(next, path[1..][..j]).Some?
                   && Child(Get(next, path[1..][..j]).value, path[1..][j]).None?;
          assert Get(doc, path[..j + 1]) == Get(next, path[1..][..j]);
        } else {
          forall i | 0 <= i < |path| && Get(doc, path[..i]).Some?
            ensures Child(Get(doc, path[..i]).value, path[i]).Some?
          {
            if i == 0 {
              assert Get(doc, path[..0]) == Some(doc);
            } else {
              assert Get(doc, path[..i]) == Get(next, path[1..][..i - 1]);
            }
          }
        }
    }
  }

  /** Every node reached by indexing into a string is itself a string. */
  lemma {:induction false} InsideStringIsString(s: string, path: seq<Segment>)
    ensures Get(JStr(s), path).Some? ==> Get(JStr(s), path).value.JStr?
    decreases |path|
  {
    if path != [] {
      match Child(JStr(s), path[0])
      case None =>
      case Some(next) => InsideStringIsString(next.s, path[1..]);
    }
  }

  /**
   * A path is addressable when every segment steps into a list or a dict;
   * the node it reaches is then a part of the document that a write through
   * `cur[n] = v` in place updates.
   */
  predicate Addressable(doc: Json, path: seq<Segment>)
    decreases |path|
  {
    path == [] ||
    ((doc.JObj? || doc.JArr?) && Child(doc, path[0]).Some? && Addressable(Child(doc, path[0]).value, path[1..]))
  }

  /** A path that reaches a dict never passes through a string. */
  lemma {:induction false} ObjectIsAddressable(doc: Json, path: seq<Segment>)
    requires Get(doc, path).Some? && Get(doc, path).value.JObj?
    ensures Addressable(doc, path)
    decreases |path|
  {
    if path != [] {
      var next := Child(doc, path[0]).value;
      if doc.JStr? {
        InsideStringIsString(next.s, path[1..]);
        assert false;
      }
      ObjectIsAddressable(next, path[1..]);
    }
  }

  /**
   * The document after the node at `path` is replaced by `v` in place.
   * Off an addressable path the document is returned as it was.
   */
  function Replace(doc: Json, path: seq<Segment>, v: Json): Json
    decreases |path|
  {
    if path == [] then v
    else
      match (doc, path[0])
      case (JObj(m), Key(k)) =>
        if k in m then JObj(m[k := Replace(m[k], path[1..], v)]) else doc
      case (JArr(xs), Idx(i)) =>
        (match Position(i, |xs|)
         case Some(n) => JArr(xs[n := Replace(xs[n], path[1..], v)])
         case None => doc)
      case _ => doc
  }

  /** Reading back the replaced node gives the new value. */
  lemma {:induction false} GetReplace(doc: Json, path: seq<Segment>, v: Json)
    requires Addressable(doc, path)
    ensures Get(Replace(doc, path, v), path) == Some(v)
    decreases |path|
  {
    if path != [] {
      GetReplace(Child(doc, path[0]).value, path[1..], v);
    }
  }

  /** Replacing a node by itself leaves the document as it was. */
  lemma {:induction false} ReplaceSame(doc: Json, path: seq<Segment>)
    requires Get(doc, path).Some?
    ensures Replace(doc, path, Get(doc, path).value) == doc
    decreases |path|
  {
    if path != [] {
      var next := Child(doc, path[0]).value;
      ReplaceSame(next, path[1..]);
      match (doc, path[0])
      case (JObj(m), Key(k)) =>
        assert m[k := m[k]] == m;
      case (JArr(xs), Idx(i)) =>
        var n := Position(i, |xs|).value;
        assert xs[n := xs[n]] == xs;
      case _ =>
    }
  }

  /** The place inside a list or dict that one segment selects. */
  datatype Slot = AtKey(key: string) | AtPos(pos: nat)

  function SlotOf(node: Json, seg: Segment): Option<Slot> {
    match (node, seg)
    case (JObj(m), Key(k)) =>
      if k in m then Some(AtKey(k)) else None
    case (JArr(xs), Idx(i)) =>
      (match Position(i, |xs|)
       case Some(n) => Some(AtPos(n))
       case None => None)
    case _ => None
  }

  /**
   * `q` leaves `p` somewhere: at some depth both resolve inside the same
   * list or dict but select different slots (so `Idx(-1)` and `Idx(len-1)`
   * are the same slot), or `q` fails there.
   */
  predicate Apart(doc: Json, p: seq<Segment>, q: seq<Segment>)
    decreases |p|
  {
    && |p| > 0 && |q| > 0
    && SlotOf(doc, p[0]).Some?
    && Child(doc, p[0]).Some?
    && (SlotOf(doc, q[0]) != SlotOf(doc, p[0]) || Apart(Child(doc, p[0]).value, p[1..], q[1..]))
  }

  /** Replacing the node at `p` changes nothing that a path apart from `p` reads. */
  lemma {:induction false} ReplaceApart(doc: Json, p: seq<Segment>, q: seq<Segment>, v: Json)
    requires Addressable(doc, p)
    requires Apart(doc, p, q)
    ensures Get(Replace(doc, p, v), q) == Get(doc, q)
    decreases |p|
  {
    var next := Child(doc, p[0]).value;
    var doc' := Replace(doc, p, v);
    if SlotOf(doc, q[0]) != SlotOf(doc, p[0]) {
      assert Child(doc', q[0]) == Child(doc, q[0]);
    } else {
      ReplaceApart(next, p[1..], q[1..], v);
      assert Child(doc', q[0]) == Some(Replace(next, p[1..], v));
    }
  }
}

=== FILE: optional.dfy ===
/** The "value or nothing" datatype used wherever the source returns `None`. */
module Optional {

  datatype Option<+T> = None | Some(value: T)
}

=== FILE: py_value.dfy ===
/**
 * How the request handlers of dnd/views read the JSON values of a request:
 * `request.data.get(name)`, Python truthiness, `isinstance(v, int)`, the
 * `v in [0, 1, 2]` test, the integer coercion Django applies to a lookup
 * value, and f-string rendering.
 */
module PyValue {
  import opened Optional
  import opened JsonTree
  import Decimal

  /** A parsed JSON object request body, `request.data`. */
  type Payload = map<string, Json>

  /** `request.data.get(name)`: a missing field and an explicit `null` both read as `None`. */
  function Field(body: Payload, name: string): (v: Json)
    ensures name !in body ==> v == JNull
    ensures name in body ==> v == body[name]
    ensures v == JNull <==> name !in body || body[name] == JNull
  {
    if name in body then body[name] else JNull
  }

  /** `bool(v)`: `None`, `False`, `0`, `""`, `[]` and `{}` are false. */
  function Truthy(v: Json): (b: bool)
    ensures !b <==> v in {JNull, JBool(false), JNum(0), JStr(""), JArr([]), JObj(map[])}
  {
    match v
    case JNull => false
    case JBool(b) => b
    case JNum(n) => n != 0
    case JStr(s) => s != ""
    case JArr(xs) => xs != []
    case JObj(m) => m != map[]
  }

  /** `isinstance(v, int)` and the int it is; `bool` is a subclass of `int`. */
  function AsPyInt(v: Json): Option<int> {
    match v
    case JNum(n) => Some(n)
    case JBool(b) => Some(if b then 1 else 0)
    case _ => None
  }

  /** The guard `if not v or not isinstance(v, int): 400`: `Some` when the guard lets `v` through. */
  function TruthyInt(v: Json): (r: Option<int>)
    ensures r.Some? ==> r.value != 0
    ensures r.Some? <==> (v.JNum? && v.n != 0) || v == JBool(true)
    ensures v.JNum? && v.n != 0 ==> r == Some(v.n)
  {
    if Truthy(v) then AsPyInt(v) else None
  }

  /**
   * The `int(value)` Django applies to a value compared with an integer
   * column; `None` stands for the ValueError/TypeError it raises, which the
   * handlers do not catch. A JSON `null` never reaches a lookup, since every
   * handler rejects falsy values first; Django would compile it to
   * `IS NULL` rather than raise, and the contract says nothing about it.
   */
  function LookupInt(v: Json): (r: Option<int>)
    ensures v.JStr? ==> r == Decimal.ParseInt(v.s)
    ensures v.JArr? || v.JObj? ==> r.None?
    ensures AsPyInt(v).Some? ==> r == AsPyInt(v)
  {
    match v
    case JStr(s) => Decimal.ParseInt(s)
    case JArr(_) => None
    case JObj(_) => None
    case JNull => None
    case _ => AsPyInt(v)
  }

  /** The guard `if not data or not isinstance(data, dict): 400`: `Some` when a non-empty object passes. */
  function Document(v: Json): (r: Option<Json>)
    ensures r.Some? <==> v.JObj? && v.fields != map[]
    ensures r.Some? ==> r.value == v
  {
    if Truthy(v) && v.JObj? then Some(v) else None
  }

  /** `v in [0, 1, 2]`, compared with Python's `==` (so `True == 1`); `Some` carries the status stored. */
  function StatusChoice(v: Json): (r: Option<int>)
    ensures r.Some? ==> 0 <= r.value <= 2
    ensures r.Some? <==> (v.JNum? && 0 <= v.n <= 2) || v.JBool?
  {
    match v
    case JNum(n) => if 0 <= n <= 2 then Some(n) else None
    case JBool(b) => Some(if b then 1 else 0)
    case _ => None
  }

  /** `f"{v}"` for the values that reach a message: an int, a bool or a string. */
  function Repr(v: Json): string
    requires v.JNum? || v.JBool? || v.JStr?
  {
    match v
    case JNum(n) => Decimal.IntStr(n)
    case JBool(b) => if b then "True" else "False"
    case JStr(s) => s
  }

  /** A query-string parameter: absent, or present as text. */
  type Param = Option<string>

  /** `bool(request.query_params.get(name))`: present and non-empty. */
  predicate ParamTruthy(p: Param) {
    p.Some? && p.value != ""
  }
}

=== FILE: roles.dfy ===
/** `Role` of dnd/models/role.py and its `is_valid` class method. */
module Roles {

  /** The enum's members in declaration order. There is no owner member. */
  datatype Role = PlayerRole | MasterRole

  /** `member.value` */
  function Value(r: Role): int {
    match r
    case PlayerRole => 0
    case MasterRole => 1
  }

  /** Iterating the enum class: every member, in declaration order. */
  const Members: seq<Role> := [PlayerRole, MasterRole]

  /** `[member.value for member in members]` */
  function ValuesOf(members: seq<Role>): (vs: seq<int>)
    ensures |vs| == |members|
    ensures forall i :: 0 <= i < |members| ==> vs[i] == Value(members[i])
    decreases |members|
  {
    if members == [] then [] else [Value(members[0])] + ValuesOf(members[1..])
  }

  /** `Role.is_valid(n)`: `n` is the value of some member of the enum. */
  function IsValid(n: int): (b: bool)
    ensures b <==> exists r: Role :: Value(r) == n
  {
    assert Value(Members[0]) == 0 && Value(Members[1]) == 1;
    n in ValuesOf(Members)
  }

  /** The valid values are exactly 0 (PLAYER) and 1 (MASTER). */
  lemma IsValidExactly(n: int)
    ensures IsValid(n) <==> n == 0 || n == 1
  {
    if n == 0 {
      assert Value(PlayerRole) == n;
    } else if n == 1 {
      assert Value(MasterRole) == n;
    }
  }

  /** Status 2, which the campaign code uses for owners, is not a `Role` value. */
  lemma OwnerStatusIsNotARole()
    ensures IsValid(0) && IsValid(1)
    ensures !IsValid(2)
  {
    IsValidExactly(0);
    IsValidExactly(1);
    IsValidExactly(2);
  }
}

=== FILE: store.dfy ===
/**
 * The relational store the handlers work on, as finite maps: players
 * (dnd/models/player.py), campaigns, campaign memberships and characters.
 * A handler is a pure function from a state and a request to a `Reply`: the
 * HTTP status, the response body and the state afterwards.
 */
module Store {
  import opened Optional
  import opened JsonTree
  import opened CharacterModel

  /** The columns of `Player` the core reads; bio, admin flag and avatar are not used. */
  datatype Player = Player(telegramId: int, verified: bool)

  /** `Campaign` without its icon image. */
  datatype Campaign = Campaign(title: string, description: string, verified: bool, private: bool)

  /** Membership statuses written by the campaign handlers. */
  const PlayerStatus: int := 0
  const OwnerStatus: int := 2

  /**
   * Rows by primary key. `members` maps (player id, campaign id) to the
   * membership's status: at most one membership per pair, as `get_or_create`
   * keeps it.
   */
  datatype State = State(
    players: map<int, Player>,
    campaigns: map<int, Campaign>,
    members: map<(int, int), int>,
    characters: map<int, Character>)

  /** Response bodies, one variant per shape the handlers produce. */
  datatype Body =
    | NoContent                                  // `Response(status=...)` with no data
    | Message(text: string)                      // `{"message": text}`
    | ErrorText(text: string)                    // `{"error": text}`
    | Detail(text: string)                       // `{"detail": text}`, an `HttpError` rendered by the framework
    | NotFoundDefault                            // `NotFoundError()` with its default message, for `Http404`
    | ServerError                                // an exception no handler catches
    | CampaignInfo(id: int, campaign: Campaign)  // one serialised campaign
    | CampaignList(ids: set<int>)                // the campaigns of a list request
    | CharacterOut(id: int, ownerId: int, ownerTelegramId: int, campaignId: Option<int>, data: Json)
    | CharacterView(id: int, ownerTelegramId: int, campaignId: Option<int>, data: Json)
    | CharacterCreated(id: int, ownerId: int, campaignId: Option<int>)

  datatype Reply = Reply(status: int, body: Body, after: State)

  /** `CampaignMembership.objects.filter(campaign=c, user_id=u).exists()` */
  predicate IsMember(s: State, user: int, campaign: int) {
    (user, campaign) in s.members
  }

  /** The same filter with `status=2`: the permission check of add and edit-permissions. */
  predicate IsOwner(s: State, user: int, campaign: int) {
    IsMember(s, user, campaign) && s.members[(user, campaign)] == OwnerStatus
  }

  /** `Player.objects.filter(telegram_id=tid)`: telegram ids need not be unique. */
  function PlayersWithTelegram(s: State, tid: int): (ids: set<int>)
    ensures forall id :: id in ids <==> id in s.players && s.players[id].telegramId == tid
  {
    set id | id in s.players && s.players[id].telegramId == tid
  }

  /** `Campaign.objects.filter(private=False)` */
  function PublicCampaigns(s: State): (ids: set<int>)
    ensures forall c :: c in ids <==> c in s.campaigns && !s.campaigns[c].private
  {
    set c | c in s.campaigns && !s.campaigns[c].private
  }

  /** Campaigns with id in the user's memberships' `campaign_id`s. */
  function MemberCampaigns(s: State, user: int): (ids: set<int>)
    ensures forall c :: c in ids <==> c in s.campaigns && IsMember(s, user, c)
  {
    set c | c in s.campaigns && IsMember(s, user, c)
  }

  lemma {:induction false} ExtremesExist(xs: set<int>)
    requires xs != {}
    ensures exists m :: m in xs && forall x :: x in xs ==> x <= m
    ensures exists m :: m in xs && forall x :: x in xs ==> m <= x
    decreases |xs|
  {
    var y := PickOne(xs);
    if xs == {y} {
      assert forall x :: x in xs ==> x == y;
    } else {
      var rest := xs - {y};
      assert |rest| < |xs|;
      ExtremesExist(rest);
      var hi :| hi in rest && forall x :: x in rest ==> x <= hi;
      var lo :| lo in rest && forall x :: x in rest ==> lo <= x;
      assert forall x :: x in xs ==> x == y || x in rest;
      var top := if y > hi then y else hi;
      var bottom := if y < lo then y else lo;
      assert top in xs && forall x :: x in xs ==> x <= top;
      assert bottom in xs && forall x :: x in xs ==> bottom <= x;
    }
  }

  lemma PickOne(xs: set<int>) returns (y: int)
    requires xs != {}
    ensures y in xs
  {
    if forall x :: x !in xs {
      assert false;
    }
    var pick :| pick in xs;
    y := pick;
  }

  function Greatest(xs: set<int>): (m: int)
    requires xs != {}
    ensures m in xs && forall x :: x in xs ==> x <= m
  {
    ExtremesExist(xs);
    var m :| m in xs && forall x :: x in xs ==> x <= m;
    m
  }

  /** The smallest id of a non-empty query: what `.first()` returns on an unordered queryset. */
  function Least(xs: set<int>): (m: int)
    requires xs != {}
    ensures m in xs && forall x :: x in xs ==> m <= x
  {
    ExtremesExist(xs);
    var m :| m in xs && forall x :: x in xs ==> m <= x;
    m
  }

  /** A set of one element is the singleton of any of its members. */
  lemma OnlyElement(xs: set<int>, x: int)
    requires |xs| == 1 && x in xs
    ensures xs == {x}
  {
    var rest := xs - {x};
    assert |rest| == 0;
    assert rest == {};
  }

  /** The primary key an `AutoField` assigns to a new row: positive and above every key in use. */
  function FreshId(ids: set<int>): (r: int)
    ensures r >= 1 && r !in ids
    ensures forall x :: x in ids ==> x < r
  {
    if ids == {} then 1
    else
      var g := Greatest(ids);
      if g < 1 then 1 else g + 1
  }

  /**
   * `Character.objects.create(...)` followed by `save_data`: exactly one
   * character row, with a key not used before, and nothing else changes.
   */
  predicate CharacterAdded(s: State, s': State, id: int, ch: Character) {
    && id !in s.characters
    && s'.characters == s.characters[id := ch]
    && s'.players == s.players
    && s'.campaigns == s.campaigns
    && s'.members == s.members
  }

  /**
   * The integrity the database keeps: positive primary keys, foreign keys
   * that point at existing rows, and membership statuses in {0, 1, 2}.
   */
  predicate Wf(s: State) {
    && (forall id :: id in s.players ==> id >= 1)
    && (forall id :: id in s.campaigns ==> id >= 1)
    && (forall id :: id in s.characters ==> id >= 1)
    && (forall k :: k in s.members ==> k.0 in s.players && k.1 in s.campaigns)
    && (forall k :: k in s.members ==> 0 <= s.members[k] <= 2)
    && (forall id :: id in s.characters ==>
          (s.characters[id].owner.Some? ==> s.characters[id].owner.value in s.players)
          && (s.characters[id].campaign.Some? ==> s.characters[id].campaign.value in s.campaigns))
  }
}

=== FILE: upload_view.dfy ===
/**
 * `upload_character` of dnd/views/upload.py: the older upload handler,
 * which knows no campaign and answers an unknown owner with 400.
 */
module UploadView {
  import opened Optional
  import opened JsonTree
  import opened CharacterModel
  import opened Store
  import opened PyValue
  import CharacterViews

  /** `hash(v)` raises TypeError for a list or a dict. */
  predicate Unhashable(v: Json) {
    v.JArr? || v.JObj?
  }

  /**
   * `upload_character`: `owner_id` a truthy int naming a player, and `data`
   * a non-empty object, else 400. A `char_name` that is not a non-empty
   * string is hashed and the value dropped; a list or dict there cannot be
   * hashed (500). The character is created with no campaign.
   */
  function Upload(s: State, body: Payload): (r: Reply)
    ensures r.status in {201, 400, 500}
    ensures r.status == 400 <==>
      || TruthyInt(Field(body, "owner_id")).None?
      || TruthyInt(Field(body, "owner_id")).value !in s.players
      || Document(Field(body, "data")).None?
    ensures r.status == 500 <==> r.status != 400 && Unhashable(Field(body, "char_name"))
    ensures r.status != 201 ==> r.after == s
    ensures r.status == 201 ==>
      && r.body == NoContent
      && exists id :: CharacterAdded(s, r.after, id,
                        Character(TruthyInt(Field(body, "owner_id")), None, Field(body, "data")))
  {
    match TruthyInt(Field(body, "owner_id"))
    case None => Reply(400, NoContent, s)
    case Some(o) =>
      if o !in s.players then Reply(400, NoContent, s)
      else
        match Document(Field(body, "data"))
        case None => Reply(400, NoContent, s)
        case Some(doc) =>
          if Unhashable(Field(body, "char_name")) then Reply(500, ServerError, s)
          else
            var id := FreshId(s.characters.Keys);
            var ch := SaveData(Character(Some(o), None, JNull), doc);
            var s' := s.(characters := s.characters[id := ch]);
            assert CharacterAdded(s, s', id, Character(Some(o), None, doc));
            Reply(201, NoContent, s')
  }

  /** A successful upload adds exactly one character, owned by the given player and in no campaign. */
  lemma UploadAddsOne(s: State, body: Payload)
    requires Upload(s, body).status == 201
    ensures |Upload(s, body).after.characters| == |s.characters| + 1
    ensures exists id ::
      && id in Upload(s, body).after.characters && id !in s.characters
      && Upload(s, body).after.characters[id].campaign.None?
      && Upload(s, body).after.characters[id].owner == TruthyInt(Field(body, "owner_id"))
  {
    var r := Upload(s, body);
    var ch := Character(TruthyInt(Field(body, "owner_id")), None, Field(body, "data"));
    var id :| CharacterAdded(s, r.after, id, ch);
    assert r.after.characters.Keys == s.characters.Keys + {id};
  }

  /**
   * An unknown owner is a 400 here and a 404 in dnd/views/character.py;
   * neither creates a character.
   */
  lemma UnknownOwnerRevisions(s: State, body: Payload)
    requires TruthyInt(Field(body, "owner_id")).Some?
    requires TruthyInt(Field(body, "owner_id")).value !in s.players
    ensures Upload(s, body).status == 400 && Upload(s, body).after == s
    ensures CharacterViews.Upload(s, body).status == 404 && CharacterViews.Upload(s, body).after == s
  {
  }

  /** The test's upload: player 1 exists, the document is a non-empty object, `char_name` a string. */
  lemma ExampleUpload()
    ensures var s := State(map[1 := Player(0, false)], map[], map[], map[]);
      var body := map["owner_id" := JNum(1), "data" := JObj(map["name" := JStr("x")]),
                      "char_name" := JStr("example-character")];
      |Upload(s, body).after.characters| == 1 && Upload(s, body).status == 201
  {
    var s := State(map[1 := Player(0, false)], map[], map[], map[]);
    var body := map["owner_id" := JNum(1), "data" := JObj(map["name" := JStr("x")]),
                    "char_name" := JStr("example-character")];
    assert Field(body, "owner_id") == JNum(1);
    assert Field(body, "char_name") == JStr("example-character");
    assert Field(body, "data") == JObj(map["name" := JStr("x")]);
    UploadAddsOne(s, body);
  }

  /** Uploading keeps the store well formed. */
  lemma UploadPreservesWf(s: State, body: Payload)
    requires Wf(s)
    ensures Wf(Upload(s, body).after)
  {
  }
}
